=== FILE: README.md ===
# nonprofit-gradient in Dafny

A model of the analysis pipeline of nonprofit-gradient. The pipeline takes the IRS
exempt-organisation registry for Pennsylvania and works through these steps:

1. Keep the Allegheny County rows (`GeoFilter`).
2. Map each organisation's NTEE code to a sector and its income to a size bucket, and
   derive the dominant sector per ZIP and the top organisations by income (`Segment`).
3. Flatten each organisation's downloaded 990 filings into one time-series row per
   filing (`Flatten`).
4. Classify each organisation's revenue momentum from the last six filings and the
   volatility of its whole history (`Momentum`).
5. Compute five-year trajectory metrics over 2019–2023 (`Trajectories`).
6. Join the tables and derive the hollow and turbulent flags (`Merge`).
7. Compute an additive priority score and map it to an outreach flag (`Scoring`).

Tables are sequences of immutable row datatypes. A missing or unparseable CSV cell is
`None`. `Merge.Float` is a Python float that may be NaN. `Flatten.Value` and `Flatten.Field`
keep apart the JSON cases that the flattening script treats differently: missing, `null`,
number and text. Every step is a pure function. Supporting modules:

- `Wrappers`: `Option`.
- `Text`: the ASCII subset of Python's `upper`/`lower`/`strip`, `in` on strings,
  `startswith`, and string order by code point.
- `Sorting`: a stable insertion sort over any total preorder, with permutation and
  stability proofs. pandas sorts on several columns with a stable lexsort, so the
  two-column sorts of the momentum and flattening scripts keep equal-key rows in input
  order, and so does the model.
- `Numbers`: sum, mean and pandas' sample variance.

Percentages are fractions where the code uses fractions. `analyze_momentum.py` compares
`pct_change` against 0.2 and 0.05 before it multiplies by 100 for output, so the model
uses 0.2 and 0.05. The momentum score is the raw two-step difference, which is what the
code computes; it is not normalised.

`flag_hollow` on its own counts an absent programme share as 0%
(`Merge.AbsentProgramShareCountsAsZero`). In `merge_and_score.py`, however,
`pd.to_numeric(errors="coerce")` runs before the flag, so every figure that reaches it
is a number or NaN. An absent share arrives as NaN, and a NaN figure never flags an
organisation (`Merge.CoercedHollowNeedsBothFigures`, `Merge.BuildProfiles`).

## Model

| member | source | states |
|---|---|---|
| Momentum.Classify | scripts/analyze_momentum.py:49-62 | Each label has an if-and-only-if condition. `turbulent` is exactly high volatility. Under low volatility: strong up is pct > 0.2 with positive momentum; strong down is pct < -0.2 with negative momentum; weak up is 0.05 < pct <= 0.2; weak down is -0.2 <= pct < -0.05; stable is abs(pct) <= 0.05. `uncategorized` is exactly a change above 20% without positive momentum, or below -20% without negative momentum. |
| Momentum.HighVolatilityIsRatioAboveHalf | scripts/analyze_momentum.py:46-49 | The square-root-free volatility test equals `std / mean > 0.5` for any non-negative square root of the sample variance. A zero mean with positive deviation reads as infinity. |
| Momentum.Analyze | scripts/analyze_momentum.py:21-43 | Fewer than six observations gives no row. Otherwise there is no row exactly when either three-year window sums below 1. Both averages are then positive and equal their window sums over 3. `pct * prior == recent - prior`, and pct is positive iff the recent average is higher. The two-step momentum equals last minus third-to-last. The label is the cascade applied to the whole history's volatility. |
| Momentum.WindowsAreLastSix | scripts/analyze_momentum.py:31-32 | The prior and recent windows have three values each and together are the last six revenues, in order. |
| Momentum.WeakUpScenario | scripts/analyze_momentum.py:38-62 | Revenues 90, 95, 100, 100, 110, 125 yield momentum 25 and `weak_up`. The 17.5% rise is below the strong threshold and the history is not volatile. |
| Momentum.DropNulls | scripts/analyze_momentum.py:9-13 | A row survives exactly when both its year and its revenue parsed. The survivor carries the same values. |
| Momentum.DropNullsAppend | scripts/analyze_momentum.py:13 | Dropping nulls is a row mask: the survivors of two frames put together are the survivors of the first followed by those of the second. |
| Momentum.DropNullsOfOne | scripts/analyze_momentum.py:9-13 | One row gives exactly one observation when its year and revenue both parsed, and none otherwise. With `DropNullsAppend` this fixes the count and order of the survivors. |
| Momentum.RowsOfAppend | scripts/analyze_momentum.py:19 | Selecting one EIN's rows keeps input order: the selection from two frames put together is the first frame's selection followed by the second's. |
| Momentum.RowsOfOne | scripts/analyze_momentum.py:19 | One observation is selected iff its EIN is the group's EIN. |
| Momentum.History | scripts/analyze_momentum.py:14-25 | An EIN's group is a permutation of its surviving rows, in ascending year order. Rows of the same year keep their input order, as the two-column sort is stable. |
| Momentum.SameYearRowsKeepFileOrder | scripts/analyze_momentum.py:14 | Two rows of one EIN with the same year stay in input order. |
| Momentum.HistoryHead | scripts/analyze_momentum.py:14-20 | The first row of a group has the EIN's earliest year and is the first row of that year in input order. |
| Momentum.HistoryIsCleanAndAscending | scripts/analyze_momentum.py:9-25 | The history of an EIN holds exactly the rows of that EIN whose year and revenue parsed, ascending by year. |
| Momentum.Eins | scripts/analyze_momentum.py:19 | The group keys are exactly the EINs present, strictly ascending and without repeats. |
| Momentum.AnalyzeGroup | scripts/analyze_momentum.py:19-43 | A group yields a row iff `Analyze` of its ascending history succeeds. The row carries the group's EIN and that result. Its name is the name of an earliest-year row, the first such row in input order; an empty `ORG_NAME` cell there (read back as NaN) gives `None`. |
| Momentum.CollectAscending | scripts/analyze_momentum.py:19-73 | Appending rows in strictly ascending key order yields rows whose EINs are strictly ascending. |
| Momentum.ClassifyAll | scripts/analyze_momentum.py:19-73 | The output has one row per EIN, in ascending EIN order. An EIN has a row exactly when `Analyze` of its ascending history succeeds. Each row is its group's analysis, name and statistics included. |
| Momentum.ShortHistoryHasNoRow | scripts/analyze_momentum.py:21-29 | An EIN with fewer than six usable observations never appears in the output. |
| Merge.FlagHollow | scripts/merge_and_score.py:37-43 | The flag holds iff the revenue is a number above 50,000 and the program share is either absent (counted as 0) or a number below 20. NaN cells compare false, and an unparseable cell yields false. |
| Merge.MissingRevenueIsNeverHollow | scripts/merge_and_score.py:39-43 | An absent, NaN or unparseable revenue never makes an organisation hollow. |
| Merge.AbsentProgramShareCountsAsZero | scripts/merge_and_score.py:40-41 | With revenue above 50,000, an absent program share flags hollow, but a NaN share does not. |
| Merge.AsCell | scripts/merge_and_score.py:19-21 | A coerced figure reaches `flag_hollow` as a number or NaN, and as NaN exactly when it is NaN. |
| Merge.CoercedHollowNeedsBothFigures | scripts/merge_and_score.py:19-43 | On coerced figures the flag holds iff revenue is a number above 50,000 and the share is a number below 20. A NaN figure never flags. |
| Merge.TurbulentFlagIgnoresCase | scripts/merge_and_score.py:48 | The turbulent flag does not change when the class is upper- or lower-cased. |
| Merge.MaxYear | scripts/merge_and_score.py:24 | The latest year of an EIN is undefined iff none of its years parsed. Otherwise it is one of its years and no parsed year exceeds it. |
| Merge.LatestAmong | scripts/merge_and_score.py:25 | A row is kept iff its year equals its EIN's latest year. A missing year equals a missing maximum, as the inner merge matches NaN keys. |
| Merge.LatestDataKeepsLatestYearOfEveryEin | scripts/merge_and_score.py:24-25 | Every kept row carries its EIN's latest year, and every EIN of the series keeps at least one row. |
| Merge.InnerJoin | scripts/merge_and_score.py:33 | A pair is in the join iff the organisation row and momentum row are both present and share the EIN. |
| Merge.LeftJoin | scripts/merge_and_score.py:34 | Every joined pair survives the left join at least once. Every output row comes from a pair, and its figures come from a latest row of the same EIN, or are NaN when there is none. Conversely, every latest row of a pair's EIN gives that pair an output row with its figures. |
| Merge.BuildProfiles | scripts/merge_and_score.py:19-48 | Every profile pairs rows of the same EIN from both tables, and every such pair is represented. A profile's figures come from a latest-year row of its EIN, or are NaN. Its hollow flag is `flag_hollow` of those figures. That flag holds iff revenue is above 50,000 and the share below 20, so a NaN figure is never hollow. Its turbulent flag is `IS_TURBULENT` of its class. |
| Merge.UnmatchedOrgIsNeverHollow | scripts/merge_and_score.py:34-45 | An organisation with no time-series row gets NaN figures from the left merge and is never hollow. |
| Scoring.CalculateScore | scripts/score_targets.py:9-32 | The score is a multiple of 5 between 0 and 110. |
| Scoring.HollowAddsForty | scripts/score_targets.py:12-13 | Turning the hollow flag on adds exactly 40, all else fixed. |
| Scoring.TurbulentAddsThirty | scripts/score_targets.py:15-16 | Turning the turbulent flag on adds exactly 30, all else fixed. |
| Scoring.MomentumTerm | scripts/score_targets.py:18-22 | The momentum term is 0, 10 or 20. |
| Scoring.LabelWords | scripts/score_targets.py:18-22 | Among the seven class labels, exactly the two down labels contain "down" and only `turbulent` contains "turbulent". |
| Scoring.MomentumTermOfLabels | scripts/score_targets.py:18-22 | Down labels score 20, `turbulent` scores 10, and every other label scores 0. |
| Scoring.ScoreOfLabelAtMostHundred | scripts/score_targets.py:9-32 | When the class is one of the seven classifier labels and the turbulent flag is derived from it, the label never earns both the down and the turbulent bonus, and the score stays within 0–100. |
| Scoring.SizeTerm | scripts/score_targets.py:24-30 | The size term is 0, 10, 15 or 20. |
| Scoring.SizeTermOfBucket | scripts/score_targets.py:24-30 | Through case-insensitive comparison, the bucket names Medium, Large and Major score 10, 15 and 20. Micro, Small and Unknown score 0. |
| Scoring.SizeTermFollowsIncome | scripts/score_targets.py:24-30 | A larger income never lowers the size term of the score. |
| Scoring.AssignFlag | scripts/score_targets.py:34-42 | Each flag holds iff the score is in its band: at least 70; 50 to 69; 30 to 49; below 30. |
| Scoring.AssignFlagMonotone | scripts/score_targets.py:34-42 | A higher score never gets a lower-ranked flag. |
| Scoring.HollowWeakDownLargeIsHighPriority | scripts/score_targets.py:9-42 | Hollow, not turbulent, `weak_down` and `Large` score 75, which is `high_priority`. |
| Scoring.ScoreAll | scripts/score_targets.py:44-45 | One scored row per profile, in order. Each score is `calculate_score` of that profile's hollow flag, turbulent flag, momentum class and size bucket, and lies in 0–110. Each flag is the band of its row's score. |
| Scoring.ScoreAllFlagFloor | scripts/score_targets.py:9-45 | A hollow or turbulent profile is at least low priority. A profile both hollow and turbulent is high priority, whatever its class and size. |
| Scoring.TurbulentFlagOfLabel | scripts/merge_and_score.py:48 | Among the seven classifier labels, `IS_TURBULENT` holds exactly for `turbulent`. |
| Trajectories.InWindow | scripts/build_trajectories.py:11-13 | A row stays iff its year parsed and lies in 2019..2023. |
| Trajectories.PivotCell | scripts/build_trajectories.py:16 | A pivot cell is missing iff the (EIN, name, year) group has no parsed revenue. Rows without a name belong to no group. |
| Trajectories.Window | scripts/build_trajectories.py:16-17 | The five per-year cells from 2019 to 2023, in order. |
| Trajectories.CagrRatio | scripts/build_trajectories.py:21-26 | The growth ratio is defined iff both end years are present, the 2019 value is positive and the 2023 value is not negative (otherwise the fourth root is no real number). Then the ratio is not negative and ratio × start equals end. |
| Trajectories.WindowVariance | scripts/build_trajectories.py:30 | Undefined iff fewer than two years are present; otherwise non-negative. |
| Trajectories.UpsAndDownsPartitionChanges | scripts/build_trajectories.py:33-42 | Rises plus falls equal the consecutive pairs that are both present and differ. There are at most n - 1 of them. |
| Trajectories.CountDeltas | scripts/build_trajectories.py:33-42 | The loop counts exactly the rising and falling consecutive pairs with both values present. The two counts total at most 4. |
| Trajectories.PeakIndex | scripts/build_trajectories.py:47-50 | Undefined iff no year is present. Otherwise it is a present year with the maximum value, and no earlier year reaches that value. |
| Trajectories.TroughIndex | scripts/build_trajectories.py:52-55 | Undefined iff no year is present. Otherwise it is a present year with the minimum value, and no earlier year is as low. |
| Trajectories.ReboundRate | scripts/build_trajectories.py:61-69 | Defined iff 2023 is present and every present value is positive. Then rate × trough equals (2023 value − trough) × 100, for a trough that is a minimum of the present values. The rate is non-negative, because that minimum includes 2023. |
| Trajectories.Rebound | scripts/build_trajectories.py:67 | For a positive trough, rate × trough equals (final − trough) × 100. The rate is non-negative iff final ≥ trough, and zero iff they are equal. |
| Trajectories.ReboundZeroIffLatestIsLowest | scripts/build_trajectories.py:61-69 | When defined, the rebound is zero exactly when 2023 is itself a minimum of the window. |
| Trajectories.FromWindow | scripts/build_trajectories.py:21-69 | The row keeps the five revenue cells it was given. Its up and down years are the counts of rising and falling present pairs, and together they are the present pairs that differ. The growth ratio is defined exactly as for `CagrRatio` and then scales the 2019 cell to the 2023 cell. The variance is missing iff fewer than two cells are present. Peak and trough years are defined iff some cell is present; the peak's cell is present and at least every present cell, the trough's at most every present cell. The rebound is defined iff 2023 is present and every present cell is positive, and then it is measured from a lowest present cell. |
| Trajectories.Build | scripts/build_trajectories.py:16-69 | The row's cells are the pivot cells of its (EIN, name) group for 2019..2023, and every metric relates to those cells as `FromWindow` states: rising and falling counts, growth ratio, variance, peak and trough cells that are present and extreme, and a rebound measured from a lowest cell. |
| Trajectories.BuildTable | scripts/build_trajectories.py:16-30 | The table fails with the KeyError iff some year of 2019..2023 has no in-window, named row with a parsed revenue, because that `REV_` column is then absent. Otherwise it has one row per pivot group, each that group's metrics. |
| Trajectories.MissingYearFailsTable | scripts/build_trajectories.py:16-30 | A window year in which no row has a readable revenue makes the table fail, whatever the other years hold. |
| Segment.GetSector | scripts/classify_and_segment.py:19-26 | The sector is the map entry of the upper-cased first non-space character, or "Unknown" when the code is missing, blank or unmapped. |
| Segment.BlankCodeIsUnknown | scripts/classify_and_segment.py:20-21 | A missing or all-whitespace code gives "Unknown". |
| Segment.UnmappedLeadIsUnknown | scripts/classify_and_segment.py:22-23 | A leading letter with no map entry gives "Unknown". |
| Segment.SectorIgnoresCase | scripts/classify_and_segment.py:22 | Upper- or lower-casing the code does not change its sector. |
| Segment.SectorIgnoresPadding | scripts/classify_and_segment.py:22 | Leading or trailing whitespace does not change the sector. |
| Segment.ClassifySize | scripts/classify_and_segment.py:34-40 | Each bucket holds iff the income lies in its band: Micro below 50,000; Small below 250,000; Medium below 1,000,000; Large below 10,000,000; Major at or above that. A missing income is Unknown. |
| Segment.ClassifySizeMonotone | scripts/classify_and_segment.py:34-40 | A larger income never gets a smaller bucket. |
| Segment.Count | scripts/classify_and_segment.py:68-69 | A (ZIP, sector) count is zero iff no row has that ZIP and sector. |
| Segment.DominantSector | scripts/classify_and_segment.py:68-71 | Undefined iff every row of the ZIP has sector "Unknown". Otherwise it is a known sector of the ZIP, and no known sector occurs more often there. |
| Segment.TopOrgs | scripts/classify_and_segment.py:78 | The result has min(100, n) rows, sorted by income descending with missing incomes last. It is a sub-multiset of the input, and no dropped row ranks above a kept one. |
| Flatten.ProgramPct | scripts/flatten_financials.py:31-36 | The program share is defined iff both values coerce and revenue is positive. Blank values count as 0. Then share × revenue equals program × 100. |
| Flatten.BlankProgramIsZeroShare | scripts/flatten_financials.py:32-34 | A blank program revenue with positive revenue gives a 0% share. |
| Flatten.NoRevenueNoShare | scripts/flatten_financials.py:31-36 | A blank or unparseable revenue leaves the share undefined. |
| Flatten.SkipIsAllOfFive | scripts/flatten_financials.py:38-39 | A filing is skipped iff each of its five figures is an empty value. A revenue given as the text "0" keeps the filing. |
| Flatten.OrgName | scripts/flatten_financials.py:20 | The name is "Unknown" when the organisation or its name is missing. It is None when the name is `null`, and the given name otherwise. |
| Flatten.RecordsOf | scripts/flatten_financials.py:22-50 | A record exists iff it comes from a filing that is not entirely empty. |
| Flatten.RecordsOfAppend | scripts/flatten_financials.py:22-50 | Records are appended in filing order: the records of two filing lists put together are those of the first followed by those of the second. |
| Flatten.RecordsOfOne | scripts/flatten_financials.py:38-50 | One filing gives no record when it is entirely empty and exactly its own record otherwise. With `RecordsOfAppend` this fixes the count and order of a document's records. |
| Flatten.FlattenDocument | scripts/flatten_financials.py:13-55 | Some documents yield no records: "Not Found", a `null` organisation, or a `null` filing list (both raise before any record). Any other document yields exactly `RecordsOf` its filings, one record per non-empty filing in filing order. Their name is "Unknown" when the organisation or its name is missing, None when the name is `null`, and the given name otherwise. |
| Flatten.Concat | scripts/flatten_financials.py:11-55 | A record is collected iff it is a record of one of the documents. |
| Flatten.ConcatAppend | scripts/flatten_financials.py:11-55 | Documents are read one after another: the records of two document lists put together are the first list's records followed by the second's. |
| Flatten.ConcatOne | scripts/flatten_financials.py:11-55 | A single document contributes exactly its own records. |
| Flatten.FlattenAll | scripts/flatten_financials.py:9-58 | There is no result (the sort raises a KeyError) iff there are no records. Otherwise the output is a permutation of all documents' records. EINs ascend, and within an EIN years descend with missing years last. Records tied on both keys keep their input order. |
| Flatten.SortRecords | scripts/flatten_financials.py:58 | The sort is a permutation that orders EINs ascending and years descending within an EIN, and it is stable. |
| Flatten.SameYearFilingsKeepOrder | scripts/flatten_financials.py:58 | Two records of one EIN and year stay in filing order. |
| Flatten.NothingFoundFails | scripts/flatten_financials.py:11-58 | When every document is "Not Found" or fails to read, the script fails at the sort. |
| GeoFilter.ZipPrefix | scripts/filter_allegheny.py:20 | The ZIP is its first five characters, or the whole value when shorter. |
| GeoFilter.Normalize | scripts/filter_allegheny.py:18-20 | Keeps EIN and name, and bounds the ZIP to five characters. |
| GeoFilter.Filter | scripts/filter_allegheny.py:18-37 | Never longer than its input, and every kept row has state "PA". |
| GeoFilter.FilterMembers | scripts/filter_allegheny.py:30-37 | A row is in the result iff it is the normalised form of an input row and passes the mask. The mask requires state PA and either a listed city or a ZIP starting 151 or 152. |
| GeoFilter.FilterKeepsOrder | scripts/filter_allegheny.py:37 | Filtering a concatenation concatenates the filtered parts, so input order is kept. |
| GeoFilter.CityTestIgnoresCaseAndPadding | scripts/filter_allegheny.py:18-33 | Lower-casing a city, or surrounding it with whitespace, does not change whether the row is kept. |
| GeoFilter.ZipDecidesInPennsylvania | scripts/filter_allegheny.py:30-36 | A row whose state normalises to PA and whose ZIP begins 151 or 152 is kept, whatever its city. A row with no state is never kept. |
| Sorting.SortByStable | scripts/analyze_momentum.py:14 | Elements with equal keys appear in the sorted output in their input order. |

## Left out

- File and network I/O, the 990 download script and the dashboard are left out. Each script's CSV and JSON input is a parameter: a sequence of rows, or for flattening a sequence of (EIN, document) pairs. The sector map is a `map<string, string>` parameter. Directory listing order is not modelled, because the output is sorted anyway.
- Output formatting is left out: `int()` truncation of averages, `round()` to two decimals and `* 100` for percentage columns, and the per-sector and per-ZIP summary grids (counts, sums and means).
- Trajectories.CagrRatio: a negative 2023 revenue over a positive 2019 one passes the guard, and the script then computes the fourth root of a negative ratio (a complex number for a Python float, NaN for a numpy float). The model has no such value and gives no ratio.
- Momentum.HighVolatility, Trajectories.CagrRatio and Trajectories.WindowVariance state the square root and fourth root indirectly. The volatility test is decided on the variance. The CAGR is kept as its growth ratio end / start, so the fourth root minus one is not computed. The volatility column is the sample variance rather than its square root.
- Floating point is modelled as exact reals. Rounding, overflow and infinities are not modelled, except the NaN comparisons that decide the hollow flag and the zero-mean volatility case.
- Text handling is ASCII-only. Upper and lower case follow ASCII, and `strip()` removes ASCII whitespace. Python's Unicode rules are not modelled.
- Parsing is left out. `pd.to_numeric` and `float()` of text are left to the input, as a parsed `Option<real>` per cell. JSON booleans counted as 0/1 in the emptiness test are not distinguished from numbers.
- Momentum.ClassifyAll: the EIN is a string. `analyze_momentum.py` reads the CSV without `dtype=str`, so pandas parses EINs as integers. Leading zeros are dropped there, and grouping and ordering are numeric. Momentum.Eins orders by code point.
- Segment.TopOrgs uses the stable sort. Its single-column `sort_values` is pandas' default quicksort, which does not promise an order among equal incomes. The model therefore fixes one of the orders pandas may produce, including which of several organisations tied at the 100th place is kept.
- Trajectories.BuildTable takes the pivot's (EIN, name) groups as a parameter. Which groups `pivot_table` keeps (it drops those with no revenue in the window) and their row order are not modelled.
- Merge.LeftJoin: output order is not stated. Membership is stated in both directions, and length is at least the number of pairs; the exact count per pair (one per latest row of its EIN) is not.
- Scoring.CalculateScore takes the hollow and turbulent flags as booleans. Their string forms read back from CSV ("True"/"False"), and a NaN turbulent cell when a class is missing, are not modelled.
- Broad exception handlers are modelled as their observable results: `None`, or skipping a document. An unreadable JSON file is simply absent from the input. Of the JSON shapes that raise, only a `null` organisation and a `null` filing list are modelled. Other non-object values raise as well, and a filing that is not an object raises mid-loop, after the document's earlier records were appended. `Flatten.Document` has no such values.

=== FILE: flatten.dfy ===
/**
 * `scripts/flatten_financials.py`: one record per non-empty filing of every organisation
 * document that was found, with the programme-revenue share, sorted by EIN ascending
 * and year descending.
 */
module Flatten {
  import opened Wrappers
  import opened Text
  import Sorting

  /**
   * A JSON field as `filing.get(...)` returns it. `Null` is a missing key or JSON null.
   * `Text` carries the string and what Python's `float()` makes of it: a finite number,
   * or `None` when `float()` raises.
   */
  datatype Value = Null | Num(n: real) | Text(s: string, asFloat: Option<real>)

  /** `v in [None, "", "null"]`: the values the share computation reads as 0. */
  predicate IsBlank(v: Value) {
    v.Null? || (v.Text? && (v.s == "" || v.s == "null"))
  }

  /** `v in [None, 0, "", "null"]`: the values that make a field count as empty. */
  predicate IsEmpty(v: Value) {
    IsBlank(v) || v == Num(0.0)
  }

  /** The coercion of one operand: blank is 0, anything else goes through `float()`,
      which raises (`None`) on text it cannot read. */
  function Coerce(v: Value): (r: Option<real>)
    ensures IsBlank(v) ==> r == Some(0.0)
    ensures v.Num? ==> r == Some(v.n)
  {
    if IsBlank(v) then Some(0.0)
    else match v
      case Num(n) => Some(n)
      case Text(_, f) => f
      case Null => Some(0.0)
  }

  /** `program_pct`: programme revenue as a percentage of total revenue, or `None` when
      either operand cannot be read or revenue is not positive. */
  function ProgramPct(revenue: Value, program: Value): (r: Option<real>)
    ensures r.Some? <==>
              Coerce(revenue).Some? && Coerce(program).Some? && Coerce(revenue).value > 0.0
    ensures r.Some? ==> r.value * Coerce(revenue).value == Coerce(program).value * 100.0
  {
    match Coerce(revenue)
    case None => None
    case Some(rv) =>
      match Coerce(program)
      case None => None
      case Some(pv) =>
        if rv > 0.0 then
          assert pv / rv * rv == pv;
          Some(pv / rv * 100.0)
        else None
  }

  /** A blank programme revenue counts as 0, so with a positive revenue the share is 0. */
  lemma BlankProgramIsZeroShare(revenue: Value, program: Value)
    requires IsBlank(program) && Coerce(revenue).Some? && Coerce(revenue).value > 0.0
    ensures ProgramPct(revenue, program) == Some(0.0)
  {
  }

  /** A missing, blank or unreadable revenue leaves the share undefined. */
  lemma NoRevenueNoShare(revenue: Value, program: Value)
    requires IsBlank(revenue) || (revenue.Text? && revenue.asFloat.None? && !IsBlank(revenue))
             || (revenue.Num? && revenue.n <= 0.0)
    ensures ProgramPct(revenue, program).None?
  {
  }

  datatype Filing = Filing(year: Option<int>, revenue: Value, expenses: Value, assets: Value,
                           program: Value, contributions: Value)

  /** The skip test: all five figures are empty. */
  predicate AllEmpty(f: Filing) {
    IsEmpty(f.revenue) && IsEmpty(f.expenses) && IsEmpty(f.assets) &&
    IsEmpty(f.program) && IsEmpty(f.contributions)
  }

  function Figures(f: Filing): seq<Value> {
    [f.revenue, f.expenses, f.assets, f.program, f.contributions]
  }

  /** The skip test is Python's `all(...)` over the five figures; a figure that is the
      text "0" is not among the empty values (only the number 0 is), so it keeps the filing. */
  lemma SkipIsAllOfFive(f: Filing)
    ensures AllEmpty(f) <==> forall v :: v in Figures(f) ==> IsEmpty(v)
    ensures f.revenue == Text("0", Some(0.0)) ==> !AllEmpty(f)
  {
    assert Figures(f)[0] == f.revenue && Figures(f)[1] == f.expenses && Figures(f)[2] == f.assets;
    assert Figures(f)[3] == f.program && Figures(f)[4] == f.contributions;
  }

  /** A JSON object member: missing, present as `null`, or present with a value. */
  datatype Field<T> = Absent | JsonNull | Given(value: T)

  datatype Organization = Organization(name: Field<string>)

  /** One fetched document: an optional `error` field, the `organization` object and the
      `filings_with_data` list. */
  datatype Document = Document(error: Option<Value>, organization: Field<Organization>,
                               filings: Field<seq<Filing>>)

  /** Reading the document raises before any record of it is appended: `.get("name")` on a
      `null` organisation, or iterating a `null` filing list. The `except` then skips the
      whole document. */
  predicate Raises(d: Document) {
    d.organization.JsonNull? || d.filings.JsonNull?
  }

  /** `data.get("organization", {}).get("name", "Unknown")`; `None` is Python's None, which
      a JSON `null` name yields. */
  function OrgName(org: Field<Organization>): (r: Option<string>)
    requires !org.JsonNull?
    ensures r.None? <==> org.Given? && org.value.name.JsonNull?
    ensures org.Absent? || (org.Given? && org.value.name.Absent?) ==> r == Some("Unknown")
    ensures org.Given? && org.value.name.Given? ==> r == Some(org.value.name.value)
  {
    match org
    case Given(o) =>
      (match o.name
       case Given(n) => Some(n)
       case JsonNull => None
       case Absent => Some("Unknown"))
    case _ => Some("Unknown")
  }

  /** `data.get("filings_with_data", [])`. */
  function FilingsOf(d: Document): seq<Filing> {
    match d.filings
    case Given(fs) => fs
    case _ => []
  }

  predicate NotFound(d: Document) {
    d.error.Some? && d.error.value.Text? && d.error.value.s == "Not Found"
  }

  datatype Record = Record(ein: string, orgName: Option<string>, year: Option<int>,
                           revenue: Value, expenses: Value, assets: Value, program: Value,
                           contributions: Value, programPct: Option<real>)

  function ToRecord(ein: string, orgName: Option<string>, f: Filing): Record {
    Record(ein, orgName, f.year, f.revenue, f.expenses, f.assets, f.program, f.contributions,
           ProgramPct(f.revenue, f.program))
  }

  function RecordsOf(ein: string, orgName: Option<string>, filings: seq<Filing>): (r: seq<Record>)
    ensures forall x :: x in r <==> exists f :: f in filings && !AllEmpty(f) && x == ToRecord(ein, orgName, f)
  {
    if |filings| == 0 then []
    else
      var rest := RecordsOf(ein, orgName, filings[1..]);
      var f := filings[0];
      assert forall g :: g in filings <==> g == f || g in filings[1..];
      if AllEmpty(f) then rest else [ToRecord(ein, orgName, f)] + rest
  }

  /** `records.append` once per non-empty filing, in filing order. */
  lemma {:induction false} RecordsOfAppend(ein: string, orgName: Option<string>, a: seq<Filing>, b: seq<Filing>)
    ensures RecordsOf(ein, orgName, a + b) == RecordsOf(ein, orgName, a) + RecordsOf(ein, orgName, b)
  {
    if |a| == 0 {
      assert a + b == b;
    } else {
      assert (a + b)[0] == a[0];
      assert (a + b)[1..] == a[1..] + b;
      RecordsOfAppend(ein, orgName, a[1..], b);
    }
  }

  lemma RecordsOfOne(ein: string, orgName: Option<string>, f: Filing)
    ensures RecordsOf(ein, orgName, [f]) == if AllEmpty(f) then [] else [ToRecord(ein, orgName, f)]
  {
    assert [f][1..] == [];
  }

  /** The records of one document, whose EIN is its file name. */
  function FlattenDocument(ein: string, d: Document): (r: seq<Record>)
    // a "Not Found" document, and one whose reading raises, contribute nothing
    ensures NotFound(d) || Raises(d) ==> r == []
    // otherwise one record per non-empty filing, in filing order (see `RecordsOfAppend`)
    ensures !NotFound(d) && !Raises(d) ==> r == RecordsOf(ein, OrgName(d.organization), FilingsOf(d))
    ensures !NotFound(d) && !Raises(d) ==>
              forall x :: x in r <==>
                exists f :: f in FilingsOf(d) && !AllEmpty(f) && x == ToRecord(ein, OrgName(d.organization), f)
    // the name: "Unknown" when the organisation or its name is missing, None when null
    ensures forall x :: x in r ==>
              x.ein == ein &&
              (d.organization.Absent? ==> x.orgName == Some("Unknown")) &&
              (d.organization.Given? ==>
                 match d.organization.value.name
                 case Absent => x.orgName == Some("Unknown")
                 case JsonNull => x.orgName.None?
                 case Given(n) => x.orgName == Some(n))
  {
    if NotFound(d) || Raises(d) then []
    else RecordsOf(ein, OrgName(d.organization), FilingsOf(d))
  }

  function Concat(docs: seq<(string, Document)>): (r: seq<Record>)
    ensures forall x :: x in r <==> exists k :: 0 <= k < |docs| && x in FlattenDocument(docs[k].0, docs[k].1)
  {
    if |docs| == 0 then []
    else
      var rest := Concat(docs[1..]);
      assert forall x :: x in rest <==> exists k :: 1 <= k < |docs| && x in FlattenDocument(docs[k].0, docs[k].1) by {
        forall x | x in rest ensures exists k :: 1 <= k < |docs| && x in FlattenDocument(docs[k].0, docs[k].1) {
          var k :| 0 <= k < |docs[1..]| && x in FlattenDocument(docs[1..][k].0, docs[1..][k].1);
          assert docs[1..][k] == docs[k + 1];
        }
        forall x | exists k :: 1 <= k < |docs| && x in FlattenDocument(docs[k].0, docs[k].1) ensures x in rest {
          var k :| 1 <= k < |docs| && x in FlattenDocument(docs[k].0, docs[k].1);
          assert docs[1..][k - 1] == docs[k];
        }
      }
      FlattenDocument(docs[0].0, docs[0].1) + rest
  }

  /** The documents' records, document after document. */
  lemma {:induction false} ConcatAppend(a: seq<(string, Document)>, b: seq<(string, Document)>)
    ensures Concat(a + b) == Concat(a) + Concat(b)
  {
    if |a| == 0 {
      assert a + b == b;
    } else {
      assert (a + b)[0] == a[0];
      assert (a + b)[1..] == a[1..] + b;
      ConcatAppend(a[1..], b);
    }
  }

  lemma ConcatOne(ein: string, d: Document)
    ensures Concat([(ein, d)]) == FlattenDocument(ein, d)
  {
    assert [(ein, d)][1..] == [];
  }

  /** Later years first, missing years last (pandas' `na_position="last"`). */
  predicate YearFirst(a: Option<int>, b: Option<int>) {
    match (a, b)
    case (Some(x), Some(y)) => x >= y
    case (Some(_), None) => true
    case (None, Some(_)) => false
    case (None, None) => true
  }

  /** `sort_values(by=["EIN", "YEAR"], ascending=[True, False])`. */
  predicate RecordOrder(a: Record, b: Record) {
    if a.ein != b.ein then StrLe(a.ein, b.ein) else YearFirst(a.year, b.year)
  }

  lemma RecordOrderIsTotalPreorder()
    ensures Sorting.TotalPreorder(RecordOrder)
  {
    forall a, b ensures RecordOrder(a, b) || RecordOrder(b, a) {
      StrLeTotal(a.ein, b.ein);
    }
    forall a, b, c | RecordOrder(a, b) && RecordOrder(b, c) ensures RecordOrder(a, c) {
      if a.ein != b.ein && b.ein != c.ein {
        StrLeTransitive(a.ein, b.ein, c.ein);
        if a.ein == c.ein {
          StrLeAntisymmetric(a.ein, b.ein);
        }
      }
    }
  }

  /** The whole flattening: every found document's non-empty filings, sorted. pandas
      cannot sort a frame built from no records, since it has no "EIN" column, so an
      empty result raises a KeyError: `None`. */
  function FlattenAll(docs: seq<(string, Document)>): (r: Option<seq<Record>>)
    ensures r.None? <==> Concat(docs) == []
    ensures r.Some? ==> multiset(r.value) == multiset(Concat(docs))
    ensures r.Some? ==>
              forall x :: x in r.value <==>
                exists k :: 0 <= k < |docs| && !NotFound(docs[k].1) && !Raises(docs[k].1) &&
                  exists f :: f in FilingsOf(docs[k].1) && !AllEmpty(f) &&
                              x == ToRecord(docs[k].0, OrgName(docs[k].1.organization), f)
    // EIN ascending, and within one EIN year descending
    ensures r.Some? ==> forall i, j :: 0 <= i < j < |r.value| ==> StrLe(r.value[i].ein, r.value[j].ein)
    ensures r.Some? ==>
              forall i, j :: 0 <= i < j < |r.value| && r.value[i].ein == r.value[j].ein ==>
                YearFirst(r.value[i].year, r.value[j].year)
    // the two-column sort is stable: records with the same EIN and year keep their order
    ensures r.Some? ==>
              forall x :: Sorting.TiedWith(r.value, x, RecordOrder) == Sorting.TiedWith(Concat(docs), x, RecordOrder)
  {
    var all := Concat(docs);
    if all == [] then None
    else Some(SortRecords(all))
  }

  /** `sort_values(by=["EIN", "YEAR"], ascending=[True, False])` on a non-empty frame. */
  function SortRecords(all: seq<Record>): (r: seq<Record>)
    ensures multiset(r) == multiset(all)
    ensures forall x :: x in r <==> x in all
    ensures forall i, j :: 0 <= i < j < |r| ==> StrLe(r[i].ein, r[j].ein)
    ensures forall i, j :: 0 <= i < j < |r| && r[i].ein == r[j].ein ==> YearFirst(r[i].year, r[j].year)
    ensures forall x :: Sorting.TiedWith(r, x, RecordOrder) == Sorting.TiedWith(all, x, RecordOrder)
  {
    RecordOrderIsTotalPreorder();
    var r := Sorting.SortBy(all, RecordOrder);
    Sorting.PermutationKeepsMembers(all, r);
    forall i, j | 0 <= i < j < |r| ensures StrLe(r[i].ein, r[j].ein) {
      assert RecordOrder(r[i], r[j]);
      if r[i].ein == r[j].ein {
        StrLeTotal(r[i].ein, r[j].ein);
      }
    }
    forall x ensures Sorting.TiedWith(r, x, RecordOrder) == Sorting.TiedWith(all, x, RecordOrder) {
      Sorting.SortByStable(all, RecordOrder, x);
    }
    r
  }

  /** Two records of one EIN and year (two filings of the same tax year) stay in filing
      order. */
  lemma SameYearFilingsKeepOrder(a: Record, b: Record)
    requires a.ein == b.ein && a.year == b.year
    ensures SortRecords([a, b]) == [a, b]
  {
    RecordOrderIsTotalPreorder();
    Sorting.SortPairInOrder(a, b, RecordOrder);
  }

  /** When every document is "Not Found" or fails to read, no record exists and the sort
      raises. */
  lemma {:induction false} NothingFoundFails(docs: seq<(string, Document)>)
    requires forall k :: 0 <= k < |docs| ==> NotFound(docs[k].1) || Raises(docs[k].1)
    ensures FlattenAll(docs).None?
  {
    if |docs| > 0 {
      NothingFoundFails(docs[1..]);
      assert FlattenDocument(docs[0].0, docs[0].1) == [];
    }
  }
}

=== FILE: geofilter.dfy ===
/**
 * `scripts/filter_allegheny.py`: normalise CITY, STATE and ZIP of the Pennsylvania
 * registry extract and keep the rows that belong to Allegheny County.
 */
module GeoFilter {
  import opened Wrappers
  import opened Text

  /** A registry row; a missing cell is `None` (pandas NaN). */
  datatype Row = Row(ein: string, name: string, city: Option<string>, state: Option<string>, zip: Option<string>)

  const AlleghenyCities: set<string> := {
    "PITTSBURGH", "BRADDOCK", "DUQUESNE", "MCKEESPORT", "MONROEVILLE",
    "MUNHALL", "NORTH VERSAILLES", "SWISSVALE", "TARENTUM", "WILKINSBURG",
    "HOMESTEAD", "CLAIRTON", "PENN HILLS", "MOUNT OLIVER", "WEST MIFFLIN",
    "BALDWIN", "BELLEVUE", "BLOOMFIELD", "SHARPSBURG", "MILLVALE", "EDGEWOOD"
  }

  /** `.str.upper().str.strip()`. */
  function NormalizeName(s: string): string {
    Strip(Upper(s))
  }

  /** `.str[:5]`. */
  function ZipPrefix(z: string): (r: string)
    ensures |r| <= 5 && |r| <= |z| && r == z[..|r|]
    ensures |z| >= 5 ==> |r| == 5
  {
    if |z| <= 5 then z else z[..5]
  }

  function MapOption(o: Option<string>, f: string -> string): Option<string> {
    match o
    case None => None
    case Some(s) => Some(f(s))
  }

  /** The three column normalisations; missing cells stay missing. */
  function Normalize(row: Row): (r: Row)
    ensures r.ein == row.ein && r.name == row.name
    ensures r.zip.Some? ==> |r.zip.value| <= 5
  {
    row.(city := MapOption(row.city, NormalizeName),
         state := MapOption(row.state, NormalizeName),
         zip := MapOption(row.zip, ZipPrefix))
  }

  /** The mask, on a normalised row: state "PA", and a listed city or a 151/152 ZIP.
      A missing cell fails each of its tests. */
  predicate InAllegheny(row: Row) {
    row.state == Some("PA") &&
    ((row.city.Some? && row.city.value in AlleghenyCities) ||
     (row.zip.Some? && (StartsWith(row.zip.value, "151") || StartsWith(row.zip.value, "152"))))
  }

  /** Normalise each row and keep those passing `keep`, in input order. */
  function Select(rows: seq<Row>, norm: Row -> Row, keep: Row -> bool): (r: seq<Row>)
    ensures |r| <= |rows|
    ensures forall i :: 0 <= i < |r| ==> keep(r[i])
  {
    if |rows| == 0 then []
    else
      var n := norm(rows[0]);
      (if keep(n) then [n] else []) + Select(rows[1..], norm, keep)
  }

  lemma {:induction false} SelectAppend(a: seq<Row>, b: seq<Row>, norm: Row -> Row, keep: Row -> bool)
    ensures Select(a + b, norm, keep) == Select(a, norm, keep) + Select(b, norm, keep)
  {
    if |a| == 0 {
      assert a + b == b;
    } else {
      assert (a + b)[0] == a[0];
      assert (a + b)[1..] == a[1..] + b;
      SelectAppend(a[1..], b, norm, keep);
    }
  }

  lemma {:induction false} SelectMembers(rows: seq<Row>, norm: Row -> Row, keep: Row -> bool, x: Row)
    ensures x in Select(rows, norm, keep) <==> exists y :: y in rows && x == norm(y) && keep(x)
  {
    if |rows| > 0 {
      SelectMembers(rows[1..], norm, keep, x);
      assert forall y :: y in rows <==> y == rows[0] || y in rows[1..];
    }
  }

  /** `df[mask]` after the normalisation. */
  function Filter(rows: seq<Row>): (r: seq<Row>)
    ensures |r| <= |rows|
    ensures forall i :: 0 <= i < |r| ==> r[i].state == Some("PA")
  {
    Select(rows, Normalize, InAllegheny)
  }

  /** A row is in the result exactly when it is the normalised form of an input row
      and passes the mask. */
  lemma FilterMembers(rows: seq<Row>, x: Row)
    ensures x in Filter(rows) <==> exists y :: y in rows && x == Normalize(y) && InAllegheny(x)
  {
    SelectMembers(rows, Normalize, InAllegheny, x);
  }

  /** The filter keeps input order: filtering a concatenation filters each part. */
  lemma FilterKeepsOrder(a: seq<Row>, b: seq<Row>)
    ensures Filter(a + b) == Filter(a) + Filter(b)
  {
    SelectAppend(a, b, Normalize, InAllegheny);
  }

  lemma UpperOfLower(s: string)
    ensures Upper(Lower(s)) == Upper(s)
  {
  }

  lemma {:induction false} UpperKeepsPadding(pad: string)
    requires AllSpace(pad)
    ensures Upper(pad) == pad
  {
  }

  /** City matching ignores letter case and whitespace around the name. */
  lemma CityTestIgnoresCaseAndPadding(row: Row, pad1: string, pad2: string)
    requires row.city.Some? && AllSpace(pad1) && AllSpace(pad2)
    ensures InAllegheny(Normalize(row.(city := Some(Lower(row.city.value))))) == InAllegheny(Normalize(row))
    ensures InAllegheny(Normalize(row.(city := Some(pad1 + row.city.value + pad2)))) == InAllegheny(Normalize(row))
  {
    var c := row.city.value;
    UpperOfLower(c);
    UpperKeepsPadding(pad1);
    UpperKeepsPadding(pad2);
    assert Upper(pad1 + c + pad2) == Upper(pad1) + Upper(c) + Upper(pad2);
    StripIgnoresPadding(pad1, Upper(c), pad2);
  }

  /** In Pennsylvania a ZIP beginning 151 or 152 is enough, whatever the city; without
      the state the row is never kept, whatever its city and ZIP. */
  lemma ZipDecidesInPennsylvania(row: Row, rest: string)
    requires row.zip == Some("151" + rest) || row.zip == Some("152" + rest)
    ensures row.state.Some? && NormalizeName(row.state.value) == "PA" ==> InAllegheny(Normalize(row))
    ensures row.state.None? ==> !InAllegheny(Normalize(row))
  {
    var z := row.zip.value;
    var p := ZipPrefix(z);
    assert |p| >= 3;
    assert p[..3] == z[..3];
    assert z[..3] == z[..3][..3];
  }
}

=== FILE: merge.dfy ===
/**
 * `scripts/merge_and_score.py`: the latest filing year of every EIN, the join of the
 * organisation table with the momentum table and the latest-year figures, and the two
 * derived flags `IS_HOLLOW` and `IS_TURBULENT`.
 */
module Merge {
  import opened Wrappers
  import opened Text

  /**
   * A numeric cell as `flag_hollow` sees it. `Absent` is one of Python's `None`, `""`
   * or the string `"nan"` (the values the code coerces to 0); `NotANumber` is the float
   * NaN that `pd.to_numeric(errors="coerce")` and unmatched left-join rows produce; it is
   * NOT in `[None, "", "nan"]` and passes through `float()` unchanged.
   * `Unparseable` is text on which `float()` raises.
   */
  datatype Cell = Absent | NotANumber | Num(value: real) | Unparseable

  /** A Python float: a finite value or NaN. */
  datatype Float = Finite(value: real) | NaN

  /** The coercion inside `flag_hollow`: absent values become 0, anything else goes
      through `float()`, which raises (`None` here) on unparseable text. */
  function Coerce(c: Cell): Option<Float> {
    match c
    case Absent => Some(Finite(0.0))
    case NotANumber => Some(NaN)
    case Num(v) => Some(Finite(v))
    case Unparseable => None
  }

  /** `x > k` and `x < k` on floats: every comparison with NaN is false. */
  predicate Above(x: Float, k: real) {
    x.Finite? && x.value > k
  }

  predicate Below(x: Float, k: real) {
    x.Finite? && x.value < k
  }

  /** `flag_hollow`: revenue above 50,000 and program share below 20 after coercion;
      an exception in either coercion yields `False`. */
  function FlagHollow(revenue: Cell, programPct: Cell): (r: bool)
    ensures r <==> revenue.Num? && revenue.value > 50000.0 &&
                   (programPct == Absent || (programPct.Num? && programPct.value < 20.0))
  {
    match Coerce(revenue)
    case None => false
    case Some(rev) =>
      match Coerce(programPct)
      case None => false
      case Some(pct) => Above(rev, 50000.0) && Below(pct, 20.0)
  }

  /** A missing revenue, whichever way it is missing, never makes an organisation hollow. */
  lemma MissingRevenueIsNeverHollow(revenue: Cell, programPct: Cell)
    requires revenue == Absent || revenue == NotANumber || revenue == Unparseable
    ensures !FlagHollow(revenue, programPct)
  {
  }

  /** A programme share coerced from an absent value counts as 0%, so a large enough
      revenue alone makes the organisation hollow. */
  lemma AbsentProgramShareCountsAsZero(rev: real)
    requires rev > 50000.0
    ensures FlagHollow(Num(rev), Absent)
    ensures !FlagHollow(Num(rev), NotANumber)
  {
  }

  /** `IS_TURBULENT`: the lower-cased momentum class contains "turbulent". */
  predicate IsTurbulent(momentumClass: string) {
    Contains(Lower(momentumClass), "turbulent")
  }

  /** The turbulent flag does not depend on letter case. */
  lemma TurbulentFlagIgnoresCase(s: string)
    ensures IsTurbulent(Upper(s)) == IsTurbulent(s)
    ensures IsTurbulent(Lower(s)) == IsTurbulent(s)
  {
    assert Lower(Upper(s)) == Lower(s);
    assert Lower(Lower(s)) == Lower(s);
  }

  // ---------------------------------------------------------------------------
  // Latest year per EIN
  // ---------------------------------------------------------------------------

  /** A row of the time series after `pd.to_numeric(errors="coerce")` on YEAR, REVENUE
      and PROGRAM_PCT: an empty or unparseable figure is NaN. */
  datatype SeriesRow = SeriesRow(ein: string, year: Option<int>, revenue: Float, programPct: Float)

  /** A coerced float as a cell handed to `flag_hollow`. */
  function AsCell(x: Float): (c: Cell)
    ensures c.Num? || c.NotANumber?
    ensures c.NotANumber? <==> x.NaN?
  {
    match x
    case Finite(v) => Num(v)
    case NaN => NotANumber
  }

  /** On coerced figures the absent and unparseable cases never arise, and the flag needs
      both figures present: revenue above 50,000 and a programme share below 20. */
  lemma CoercedHollowNeedsBothFigures(revenue: Float, programPct: Float)
    ensures FlagHollow(AsCell(revenue), AsCell(programPct)) <==>
              Above(revenue, 50000.0) && Below(programPct, 20.0)
  {
  }

  /** `groupby("EIN")["YEAR"].max()`: the largest recorded year of `ein`, skipping missing
      years; `None` (NaN) when the EIN has no recorded year at all. */
  function MaxYear(rows: seq<SeriesRow>, ein: string): (y: Option<int>)
    ensures y.None? <==> forall r :: r in rows && r.ein == ein ==> r.year.None?
    ensures y.Some? ==> exists r :: r in rows && r.ein == ein && r.year == y
    ensures y.Some? ==> forall r :: r in rows && r.ein == ein && r.year.Some? ==> r.year.value <= y.value
  {
    if |rows| == 0 then None
    else
      var rest := MaxYear(rows[1..], ein);
      var r := rows[0];
      assert forall x :: x in rows <==> x == r || x in rows[1..];
      if r.ein != ein || r.year.None? then rest
      else if rest.None? || rest.value < r.year.value then r.year
      else rest
  }

  /** The inner merge of the series with its per-EIN maximum on `[EIN, YEAR]`: the rows
      whose year is their EIN's latest one. pandas matches a NaN key with a NaN key, so an
      EIN with no recorded year keeps all of its rows. */
  function LatestData(rows: seq<SeriesRow>): seq<SeriesRow> {
    LatestAmong(rows, rows)
  }

  function LatestAmong(candidates: seq<SeriesRow>, rows: seq<SeriesRow>): (r: seq<SeriesRow>)
    ensures forall x :: x in r <==> x in candidates && x.year == MaxYear(rows, x.ein)
  {
    if |candidates| == 0 then []
    else
      var rest := LatestAmong(candidates[1..], rows);
      var c := candidates[0];
      assert forall x :: x in candidates <==> x == c || x in candidates[1..];
      if c.year == MaxYear(rows, c.ein) then [c] + rest else rest
  }

  /** Every kept row carries its EIN's latest year, and no EIN of the series is lost. */
  lemma LatestDataKeepsLatestYearOfEveryEin(rows: seq<SeriesRow>)
    ensures forall x :: x in LatestData(rows) ==>
              x in rows &&
              forall r :: r in rows && r.ein == x.ein && r.year.Some? ==> x.year.Some? && r.year.value <= x.year.value
    ensures forall r :: r in rows ==> exists x :: x in LatestData(rows) && x.ein == r.ein
  {
    forall r | r in rows ensures exists x :: x in LatestData(rows) && x.ein == r.ein {
      var y := MaxYear(rows, r.ein);
      if y.Some? {
        var x :| x in rows && x.ein == r.ein && x.year == y;
        assert x in LatestData(rows);
      } else {
        assert r.year.None?;
        assert r in LatestData(rows);
      }
    }
  }

  // ---------------------------------------------------------------------------
  // The merge
  // ---------------------------------------------------------------------------

  /** A row of the classified organisation table (`allegheny_mapped.csv`). */
  datatype OrgRow = OrgRow(ein: string, name: string, sector: string, sizeBucket: string)

  /** A row of the momentum table as read back as text. */
  datatype MomentumRow = MomentumRow(ein: string, momentumClass: string)

  /** A row of the merged profile table. */
  datatype Merged = Merged(org: OrgRow, momentum: MomentumRow, revenue: Float, programPct: Float)

  /** The pairs one organisation row forms in the inner merge. */
  function PairsFor(a: OrgRow, momentum: seq<MomentumRow>): (r: seq<(OrgRow, MomentumRow)>)
    ensures forall p :: p in r <==> p.0 == a && p.1 in momentum && p.1.ein == a.ein
  {
    if |momentum| == 0 then []
    else
      var rest := PairsFor(a, momentum[1..]);
      assert forall b :: b in momentum <==> b == momentum[0] || b in momentum[1..];
      if momentum[0].ein == a.ein then [(a, momentum[0])] + rest else rest
  }

  /** `mapped.merge(momentum, on="EIN", how="inner")`: every matching pair, in the order
      of the organisation table. */
  function InnerJoin(mapped: seq<OrgRow>, momentum: seq<MomentumRow>): (r: seq<(OrgRow, MomentumRow)>)
    ensures forall p :: p in r <==> p.0 in mapped && p.1 in momentum && p.0.ein == p.1.ein
  {
    if |mapped| == 0 then []
    else
      assert forall a :: a in mapped <==> a == mapped[0] || a in mapped[1..];
      PairsFor(mapped[0], momentum) + InnerJoin(mapped[1..], momentum)
  }

  /** The latest-year rows of one EIN, in order. */
  function LatestFor(ein: string, latest: seq<SeriesRow>): (r: seq<SeriesRow>)
    ensures forall x :: x in r <==> x in latest && x.ein == ein
  {
    if |latest| == 0 then []
    else
      var rest := LatestFor(ein, latest[1..]);
      assert forall x :: x in latest <==> x == latest[0] || x in latest[1..];
      if latest[0].ein == ein then [latest[0]] + rest else rest
  }

  function Attach(p: (OrgRow, MomentumRow), matches: seq<SeriesRow>): (r: seq<Merged>)
    ensures |r| == |matches|
    ensures forall i :: 0 <= i < |r| ==>
              r[i] == Merged(p.0, p.1, matches[i].revenue, matches[i].programPct)
  {
    seq(|matches|, i requires 0 <= i < |matches| => Merged(p.0, p.1, matches[i].revenue, matches[i].programPct))
  }

  /** The figures of `m` come from a latest-year row of its own EIN, or are NaN when its
      EIN has none. */
  ghost predicate FiguresFromOwnEin(m: Merged, latest: seq<SeriesRow>) {
    || (exists x :: x in latest && x.ein == m.org.ein &&
                    m.revenue == x.revenue && m.programPct == x.programPct)
    || ((forall x :: x in latest ==> x.ein != m.org.ein) &&
        m.revenue == NaN && m.programPct == NaN)
  }

  /** The left-merge rows of a single pair. */
  function JoinOne(p: (OrgRow, MomentumRow), latest: seq<SeriesRow>): (r: seq<Merged>)
    ensures |r| >= 1
    ensures forall m :: m in r ==> m.org == p.0 && m.momentum == p.1 && FiguresFromOwnEin(m, latest)
    ensures forall x :: x in latest && x.ein == p.0.ein ==> Merged(p.0, p.1, x.revenue, x.programPct) in r
  {
    var matches := LatestFor(p.0.ein, latest);
    if |matches| == 0 then [Merged(p.0, p.1, NaN, NaN)]
    else
      var r := Attach(p, matches);
      assert forall m :: m in r ==> exists i :: 0 <= i < |r| && r[i] == m && matches[i] in matches;
      assert forall x :: x in latest && x.ein == p.0.ein ==> Merged(p.0, p.1, x.revenue, x.programPct) in r by {
        forall x | x in latest && x.ein == p.0.ein ensures Merged(p.0, p.1, x.revenue, x.programPct) in r {
          var i :| 0 <= i < |matches| && matches[i] == x;
          assert r[i] == Merged(p.0, p.1, x.revenue, x.programPct);
        }
      }
      r
  }

  /** `df.merge(latest_data, on="EIN", how="left")`: each pair once per matching latest
      row, or once with NaN figures when there is none. */
  function LeftJoin(pairs: seq<(OrgRow, MomentumRow)>, latest: seq<SeriesRow>): (r: seq<Merged>)
    // no pair is lost, and the output is at least as long as the input
    ensures |r| >= |pairs|
    ensures forall p :: p in pairs ==> exists m :: m in r && m.org == p.0 && m.momentum == p.1
    // every output row is a pair of the input with figures from its own EIN, or NaN
    ensures forall m :: m in r ==> (m.org, m.momentum) in pairs && FiguresFromOwnEin(m, latest)
    // and every latest row of a pair's EIN gives that pair a row
    ensures forall p, x :: p in pairs && x in latest && x.ein == p.0.ein ==>
              Merged(p.0, p.1, x.revenue, x.programPct) in r
  {
    if |pairs| == 0 then []
    else
      var here := JoinOne(pairs[0], latest);
      var rest := LeftJoin(pairs[1..], latest);
      assert here[0] in here;
      assert forall q :: q in pairs <==> q == pairs[0] || q in pairs[1..];
      here + rest
  }

  /** A merged and flagged profile row. */
  datatype Profile = Profile(row: Merged, isHollow: bool, isTurbulent: bool)

  /** Both flags of one merged row. */
  function Flagged(m: Merged): (p: Profile)
    ensures p.row == m
    ensures p.isHollow <==> Above(m.revenue, 50000.0) && Below(m.programPct, 20.0)
  {
    CoercedHollowNeedsBothFigures(m.revenue, m.programPct);
    Profile(m, FlagHollow(AsCell(m.revenue), AsCell(m.programPct)), IsTurbulent(m.momentum.momentumClass))
  }

  /** `mapped.merge(momentum, how="inner").merge(latest_data, how="left")`. */
  function Joined(mapped: seq<OrgRow>, momentum: seq<MomentumRow>, series: seq<SeriesRow>): (j: seq<Merged>)
    ensures forall m :: m in j ==> m.org in mapped && m.momentum in momentum && m.org.ein == m.momentum.ein
    ensures forall m :: m in j ==> FiguresFromOwnEin(m, LatestData(series))
    ensures forall a, b :: a in mapped && b in momentum && a.ein == b.ein ==>
              exists m :: m in j && m.org == a && m.momentum == b
  {
    var pairs := InnerJoin(mapped, momentum);
    var j := LeftJoin(pairs, LatestData(series));
    forall a, b | a in mapped && b in momentum && a.ein == b.ein
      ensures exists m :: m in j && m.org == a && m.momentum == b
    {
      assert (a, b) in pairs;
    }
    j
  }

  /** `df.apply(flag_hollow)` and the `IS_TURBULENT` column over the merged rows. */
  function FlagAll(joined: seq<Merged>): (r: seq<Profile>)
    ensures forall m :: m in joined ==> exists p :: p in r && p.row == m
    ensures forall p :: p in r ==> p.row in joined
    ensures forall p :: p in r ==>
              p.isHollow == FlagHollow(AsCell(p.row.revenue), AsCell(p.row.programPct)) &&
              p.isTurbulent == IsTurbulent(p.row.momentum.momentumClass)
    ensures forall p :: p in r ==>
              (p.isHollow <==> Above(p.row.revenue, 50000.0) && Below(p.row.programPct, 20.0))
  {
    var r := seq(|joined|, i requires 0 <= i < |joined| => Flagged(joined[i]));
    forall m | m in joined ensures exists p :: p in r && p.row == m {
      var i :| 0 <= i < |joined| && joined[i] == m;
      assert r[i] in r;
    }
    forall p | p in r
      ensures p.row in joined
      ensures p.isHollow == FlagHollow(AsCell(p.row.revenue), AsCell(p.row.programPct))
      ensures p.isTurbulent == IsTurbulent(p.row.momentum.momentumClass)
      ensures p.isHollow <==> Above(p.row.revenue, 50000.0) && Below(p.row.programPct, 20.0)
    {
      var i :| 0 <= i < |r| && r[i] == p;
      assert p == Flagged(joined[i]);
    }
    r
  }

  /** The merged profile table with both flags. */
  function BuildProfiles(mapped: seq<OrgRow>, momentum: seq<MomentumRow>, series: seq<SeriesRow>): (r: seq<Profile>)
    ensures forall p :: p in r ==>
              p.row.org in mapped && p.row.momentum in momentum && p.row.org.ein == p.row.momentum.ein
    // the figures are those of a latest-year row of the EIN, or NaN when it has none
    ensures forall p :: p in r ==> FiguresFromOwnEin(p.row, LatestData(series))
    ensures forall p :: p in r ==>
              p.isHollow == FlagHollow(AsCell(p.row.revenue), AsCell(p.row.programPct)) &&
              p.isTurbulent == IsTurbulent(p.row.momentum.momentumClass)
    // a missing (NaN) revenue or programme share never makes a profile hollow
    ensures forall p :: p in r ==>
              (p.isHollow <==> Above(p.row.revenue, 50000.0) && Below(p.row.programPct, 20.0))
    ensures forall a, b :: a in mapped && b in momentum && a.ein == b.ein ==>
              exists p :: p in r && p.row.org == a && p.row.momentum == b
  {
    var joined := Joined(mapped, momentum, series);
    var r := FlagAll(joined);
    forall a, b | a in mapped && b in momentum && a.ein == b.ein
      ensures exists p :: p in r && p.row.org == a && p.row.momentum == b
    {
      var m :| m in joined && m.org == a && m.momentum == b;
      var p :| p in r && p.row == m;
    }
    r
  }

  /** An organisation with no row in the time series gets NaN figures from the left merge,
      so it is never hollow, whatever its momentum. */
  lemma UnmatchedOrgIsNeverHollow(mapped: seq<OrgRow>, momentum: seq<MomentumRow>, series: seq<SeriesRow>, p: Profile)
    requires p in BuildProfiles(mapped, momentum, series)
    requires forall x :: x in series ==> x.ein != p.row.org.ein
    ensures p.row.revenue == NaN && p.row.programPct == NaN
    ensures !p.isHollow
  {
    var latest := LatestData(series);
    forall x | x in latest ensures x.ein != p.row.org.ein {
      assert x in series;
    }
  }
}

=== FILE: momentum.dfy ===
/**
 * The momentum classifier of `scripts/analyze_momentum.py`: per organisation (EIN) it
 * takes the revenue history in ascending year order, drops organisations with too
 * little or near-zero history, compares the mean of the last three revenues with the
 * mean of the three before them, and assigns one of seven labels through an ordered
 * cascade whose first rule is a volatility override.
 */
module Momentum {
  import opened Wrappers
  import opened Text
  import Sorting
  import opened Numbers

  /** The seven labels the cascade can assign. */
  datatype MomentumClass =
    | Turbulent
    | StrongUp
    | StrongDown
    | WeakUp
    | WeakDown
    | Stable
    | Uncategorized

  /** The label as written to the `MOMENTUM_CLASS` column. */
  function ClassName(c: MomentumClass): string {
    match c
    case Turbulent => "turbulent"
    case StrongUp => "strong_momentum_up"
    case StrongDown => "strong_momentum_down"
    case WeakUp => "weak_up"
    case WeakDown => "weak_down"
    case Stable => "stable"
    case Uncategorized => "uncategorized"
  }

  function Abs(x: real): real {
    if x < 0.0 then -x else x
  }

  // ---------------------------------------------------------------------------
  // Volatility
  // ---------------------------------------------------------------------------

  /**
   * `std / mean > 0.5` over the whole history, decided without the square root.
   * With a positive mean it is `variance > mean^2 / 4`; with a zero mean the float
   * division yields +inf when the deviation is positive (and NaN, which compares
   * false, when it is zero); with a negative mean the ratio is never positive.
   */
  predicate HighVolatility(revs: seq<real>)
    requires |revs| >= 2
  {
    var m := Mean(revs);
    var v := SampleVariance(revs);
    if m > 0.0 then v > Sq(m) / 4.0
    else if m == 0.0 then v > 0.0
    else false
  }

  /** For the standard deviation `sd` (any non-negative square root of the sample
      variance), `HighVolatility` is exactly "`sd / mean` exceeds 0.5", reading a
      positive `sd / 0` as +inf. */
  lemma HighVolatilityIsRatioAboveHalf(revs: seq<real>, sd: real)
    requires |revs| >= 2
    requires sd >= 0.0 && Sq(sd) == SampleVariance(revs)
    ensures HighVolatility(revs) <==>
              (Mean(revs) > 0.0 && sd / Mean(revs) > 0.5) || (Mean(revs) == 0.0 && sd > 0.0)
  {
    var m := Mean(revs);
    if m > 0.0 {
      var half := m / 2.0;
      calc { Sq(m) / 4.0; m * m / 4.0; half * half; Sq(half); }
      DivAboveHalf(sd, m);
      if sd > half {
        SqStrictMonotone(half, sd);
      } else if sd < half {
        SqStrictMonotone(sd, half);
      }
    } else if m == 0.0 && sd > 0.0 {
      SqStrictMonotone(0.0, sd);
    }
  }

  // ---------------------------------------------------------------------------
  // The cascade
  // ---------------------------------------------------------------------------

  /**
   * The ordered cascade. `pctChange` is the fractional change (0.2 means +20%),
   * `momentum` the raw two-step momentum score.
   */
  function Classify(highVolatility: bool, pctChange: real, momentum: real): (r: MomentumClass)
    // the volatility rule overrides every direction rule
    ensures r == Turbulent <==> highVolatility
    // below the volatility bar the labels partition the (pctChange, momentum) plane
    ensures !highVolatility ==> (r == StrongUp <==> pctChange > 0.2 && momentum > 0.0)
    ensures !highVolatility ==> (r == StrongDown <==> pctChange < -0.2 && momentum < 0.0)
    ensures !highVolatility ==> (r == WeakUp <==> 0.05 < pctChange <= 0.2)
    ensures !highVolatility ==> (r == WeakDown <==> -0.2 <= pctChange < -0.05)
    ensures !highVolatility ==> (r == Stable <==> Abs(pctChange) <= 0.05)
    ensures !highVolatility ==>
              (r == Uncategorized <==>
                 (pctChange > 0.2 && momentum <= 0.0) || (pctChange < -0.2 && momentum >= 0.0))
  {
    if highVolatility then Turbulent
    else if pctChange > 0.2 && momentum > 0.0 then StrongUp
    else if pctChange < -0.2 && momentum < 0.0 then StrongDown
    else if 0.05 < pctChange <= 0.2 then WeakUp
    else if -0.2 <= pctChange < -0.05 then WeakDown
    else if Abs(pctChange) <= 0.05 then Stable
    else Uncategorized
  }

  // ---------------------------------------------------------------------------
  // One organisation
  // ---------------------------------------------------------------------------

  /** The figures one output row carries (before `analyze_momentum.py`'s `int`/`round` formatting). */
  datatype Stats = Stats(
    avgRecent: real,
    avgPrior: real,
    pctChange: real,
    momentum: real,
    mean: real,
    variance: real,
    momentumClass: MomentumClass)

  /** The last three revenues. */
  function Recent(revs: seq<real>): seq<real>
    requires |revs| >= 3
  {
    revs[|revs| - 3..]
  }

  /** The three revenues immediately before `Recent`. */
  function Prior(revs: seq<real>): seq<real>
    requires |revs| >= 6
  {
    revs[|revs| - 6..|revs| - 3]
  }

  /** The two windows are consecutive and together form the last six revenues. */
  lemma WindowsAreLastSix(revs: seq<real>)
    requires |revs| >= 6
    ensures |Prior(revs)| == 3 && |Recent(revs)| == 3
    ensures Prior(revs) + Recent(revs) == revs[|revs| - 6..]
  {
  }

  lemma SumOfThree(s: seq<real>)
    requires |s| == 3
    ensures Sum(s) == s[0] + s[1] + s[2]
  {
    assert s[1..][1..] == [s[2]];
    assert Sum(s[1..][1..][1..]) == 0.0;
    assert Sum(s[1..][1..]) == s[2];
    assert Sum(s[1..]) == s[1] + s[2];
  }

  /** The analysis of one organisation's ascending revenue history, or `None` when the
      organisation is skipped. */
  function Analyze(revs: seq<real>): (r: Option<Stats>)
    ensures |revs| < 6 ==> r.None?
    ensures |revs| >= 6 ==>
              (r.None? <==> Sum(Recent(revs)) < 1.0 || Sum(Prior(revs)) < 1.0)
    ensures r.Some? ==>
              var n := |revs|;
              var st := r.value;
              // both windows are strictly positive on average, so the division is defined
              && st.avgPrior > 0.0 && st.avgRecent > 0.0
              && 3.0 * st.avgRecent == revs[n - 3] + revs[n - 2] + revs[n - 1]
              && 3.0 * st.avgPrior == revs[n - 6] + revs[n - 5] + revs[n - 4]
              // the fractional change relates the two averages
              && st.pctChange * st.avgPrior == st.avgRecent - st.avgPrior
              && (st.pctChange > 0.0 <==> st.avgRecent > st.avgPrior)
              // the two-step momentum telescopes to last minus third-to-last
              && st.momentum == revs[n - 1] - revs[n - 3]
              && st.mean == Mean(revs)
              && st.variance == SampleVariance(revs)
              && st.momentumClass == Classify(HighVolatility(revs), st.pctChange, st.momentum)
  {
    if |revs| < 5 then None
    else if |revs| < 6 then None
    else
      var recent := Recent(revs);
      var prior := Prior(revs);
      if Sum(recent) < 1.0 || Sum(prior) < 1.0 then None
      else
        SumOfThree(recent);
        SumOfThree(prior);
        var avgRecent := Sum(recent) / 3.0;
        var avgPrior := Sum(prior) / 3.0;
        var pctChange := (avgRecent - avgPrior) / avgPrior;
        var momentum := (recent[2] - recent[1]) + (recent[1] - recent[0]);
        var cls := Classify(HighVolatility(revs), pctChange, momentum);
        Some(Stats(avgRecent, avgPrior, pctChange, momentum,
                   Mean(revs), SampleVariance(revs), cls))
  }

  /** Prior window 90, 95, 100 and recent window 100, 110, 125: a 17.5% rise with
      momentum 25 falls in the weak-up band, below the strong-up threshold. */
  lemma WeakUpScenario()
    ensures var r := Analyze([90.0, 95.0, 100.0, 100.0, 110.0, 125.0]);
            r.Some? && r.value.momentum == 25.0 && r.value.momentumClass == WeakUp
  {
    var revs := [90.0, 95.0, 100.0, 100.0, 110.0, 125.0];
    assert Sum(revs) == 620.0 by {
      assert revs[1..] == [95.0, 100.0, 100.0, 110.0, 125.0];
      assert revs[1..][1..] == [100.0, 100.0, 110.0, 125.0];
      assert revs[1..][1..][1..] == [100.0, 110.0, 125.0];
      SumOfThree(revs[1..][1..][1..]);
    }
    var m := Mean(revs);
    assert Sq(m) / 4.0 > 2000.0 by {
      assert m * 6.0 == 620.0;
      assert m > 100.0;
      SqStrictMonotone(100.0, m);
    }
    assert SampleVariance(revs) < 2000.0 by {
      assert m == 310.0 / 3.0;
      var t := revs[1..][1..][1..];
      assert SquaredDeviations(t[1..][1..][1..], m) == 0.0;
      assert SquaredDeviations(t[1..][1..], m) == 4225.0 / 9.0;
      assert SquaredDeviations(t[1..], m) == 4625.0 / 9.0;
      assert SquaredDeviations(t, m) == 4725.0 / 9.0;
      assert SquaredDeviations(revs[1..][1..], m) == 4825.0 / 9.0;
      assert SquaredDeviations(revs[1..], m) == 5450.0 / 9.0;
      assert SquaredDeviations(revs, m) == 7050.0 / 9.0;
    }
    assert !HighVolatility(revs);
  }

  // ---------------------------------------------------------------------------
  // The whole table
  // ---------------------------------------------------------------------------

  /** A row of the flattened time series as read back: year and revenue may be missing
      or unparseable (`None`), and so may the name (an empty `ORG_NAME` cell reads as NaN). */
  datatype SeriesRow = SeriesRow(ein: string, orgName: Option<string>, year: Option<int>, revenue: Option<real>)

  /** A row that survived `dropna` on revenue and year; the name is not part of that subset. */
  datatype Obs = Obs(ein: string, orgName: Option<string>, year: int, revenue: real)

  /** One output row; a NaN name is carried into it as `None`. */
  datatype Profile = Profile(ein: string, orgName: Option<string>, stats: Stats)

  /** `dropna(subset=["REVENUE", "YEAR"])`. */
  function DropNulls(rows: seq<SeriesRow>): (r: seq<Obs>)
    ensures forall o :: o in r <==>
              exists row :: row in rows && row.year.Some? && row.revenue.Some?
                            && o == Obs(row.ein, row.orgName, row.year.value, row.revenue.value)
  {
    if |rows| == 0 then []
    else
      var row := rows[0];
      var rest := DropNulls(rows[1..]);
      assert forall x :: x in rows <==> x == row || x in rows[1..];
      if row.year.Some? && row.revenue.Some? then
        [Obs(row.ein, row.orgName, row.year.value, row.revenue.value)] + rest
      else rest
  }

  /** `dropna` is a row mask: each surviving row gives one observation, in input order. */
  lemma {:induction false} DropNullsAppend(a: seq<SeriesRow>, b: seq<SeriesRow>)
    ensures DropNulls(a + b) == DropNulls(a) + DropNulls(b)
  {
    if |a| == 0 {
      assert a + b == b;
    } else {
      assert (a + b)[0] == a[0];
      assert (a + b)[1..] == a[1..] + b;
      DropNullsAppend(a[1..], b);
    }
  }

  lemma DropNullsOfOne(row: SeriesRow)
    ensures DropNulls([row]) ==
              if row.year.Some? && row.revenue.Some?
              then [Obs(row.ein, row.orgName, row.year.value, row.revenue.value)]
              else []
  {
    assert [row][1..] == [];
  }

  /** The rows of one EIN, in input order. */
  function RowsOf(obs: seq<Obs>, ein: string): (r: seq<Obs>)
    ensures forall o :: o in r <==> o in obs && o.ein == ein
    ensures multiset(r) <= multiset(obs)
  {
    if |obs| == 0 then []
    else
      assert obs == [obs[0]] + obs[1..];
      var rest := RowsOf(obs[1..], ein);
      if obs[0].ein == ein then [obs[0]] + rest else rest
  }

  /** Selecting one EIN's rows is a mask too: it keeps count and order. */
  lemma {:induction false} RowsOfAppend(a: seq<Obs>, b: seq<Obs>, ein: string)
    ensures RowsOf(a + b, ein) == RowsOf(a, ein) + RowsOf(b, ein)
  {
    if |a| == 0 {
      assert a + b == b;
    } else {
      assert (a + b)[0] == a[0];
      assert (a + b)[1..] == a[1..] + b;
      RowsOfAppend(a[1..], b, ein);
    }
  }

  lemma RowsOfOne(o: Obs, ein: string)
    ensures RowsOf([o], ein) == if o.ein == ein then [o] else []
  {
    assert [o][1..] == [];
  }

  predicate YearLe(a: Obs, b: Obs) {
    a.year <= b.year
  }

  lemma YearLeIsTotalPreorder()
    ensures Sorting.TotalPreorder(YearLe)
  {
  }

  /** One EIN's rows in ascending year order (`analyze_momentum.py`'s sort on
      `[EIN, YEAR]` seen from inside one group). */
  function History(obs: seq<Obs>, ein: string): (h: seq<Obs>)
    ensures multiset(h) == multiset(RowsOf(obs, ein))
    ensures forall i, j :: 0 <= i < j < |h| ==> h[i].year <= h[j].year
    // the multi-column sort is stable: rows of one year keep their input order
    ensures forall o :: Sorting.TiedWith(h, o, YearLe) == Sorting.TiedWith(RowsOf(obs, ein), o, YearLe)
  {
    YearLeIsTotalPreorder();
    var h := Sorting.SortBy(RowsOf(obs, ein), YearLe);
    forall o ensures Sorting.TiedWith(h, o, YearLe) == Sorting.TiedWith(RowsOf(obs, ein), o, YearLe) {
      Sorting.SortByStable(RowsOf(obs, ein), YearLe, o);
    }
    h
  }

  /** Two filings of one EIN in the same year stay in file order, so the later one is
      the later revenue of the history. */
  lemma SameYearRowsKeepFileOrder(a: Obs, b: Obs)
    requires a.ein == b.ein && a.year == b.year
    ensures History([a, b], a.ein) == [a, b]
  {
    assert [a, b][1..] == [b] && [b][1..] == [];
    assert RowsOf([b], a.ein) == [b];
    var rows := RowsOf([a, b], a.ein);
    assert rows == [a, b];
    var h := History([a, b], a.ein);
    assert |h| == 2 by {
      assert |multiset(h)| == |multiset(rows)|;
    }
    assert Sorting.TiedWith(h, a, YearLe) == Sorting.TiedWith(rows, a, YearLe);
    assert Sorting.TiedWith(rows, a, YearLe) == [a, b] by {
      assert Sorting.Tied(YearLe, a, a) && Sorting.Tied(YearLe, b, a);
      assert Sorting.TiedWith([b], a, YearLe) == [b];
    }
    assert h[1..][1..] == [];
  }

  function Revenues(h: seq<Obs>): (r: seq<real>)
    ensures |r| == |h|
    ensures forall i :: 0 <= i < |h| ==> r[i] == h[i].revenue
  {
    seq(|h|, i requires 0 <= i < |h| => h[i].revenue)
  }

  /** The values of `xs` with later repeats removed. */
  function Distinct(xs: seq<string>): (r: seq<string>)
    ensures forall x :: x in r <==> x in xs
    ensures forall i, j :: 0 <= i < j < |r| ==> r[i] != r[j]
  {
    if |xs| == 0 then []
    else
      var rest := Distinct(xs[1..]);
      assert forall x :: x in xs <==> x == xs[0] || x in xs[1..];
      if xs[0] in rest then rest else [xs[0]] + rest
  }

  lemma StrLeIsTotalPreorder()
    ensures Sorting.TotalPreorder(StrLe)
  {
    forall a, b ensures StrLe(a, b) || StrLe(b, a) {
      StrLeTotal(a, b);
    }
    forall a, b, c | StrLe(a, b) && StrLe(b, c) ensures StrLe(a, c) {
      StrLeTransitive(a, b, c);
    }
  }

  /** The `EIN` column. */
  function EinColumn(obs: seq<Obs>): (r: seq<string>)
    ensures forall e :: e in r <==> exists o :: o in obs && o.ein == e
  {
    if |obs| == 0 then []
    else
      assert forall o :: o in obs <==> o == obs[0] || o in obs[1..];
      [obs[0].ein] + EinColumn(obs[1..])
  }

  /** The group keys in `groupby`'s order: every EIN once, ascending. */
  function Eins(obs: seq<Obs>): (r: seq<string>)
    ensures forall e :: e in r <==> exists o :: o in obs && o.ein == e
    ensures forall i, j :: 0 <= i < j < |r| ==> StrLe(r[i], r[j]) && r[i] != r[j]
  {
    var keys := Distinct(EinColumn(obs));
    var r := SortStrings(keys);
    Sorting.PermutationKeepsMembers(keys, r);
    Sorting.PermutationKeepsDistinct(keys, r);
    r
  }

  /** Strings in ascending code-point order. */
  function SortStrings(xs: seq<string>): (r: seq<string>)
    ensures multiset(r) == multiset(xs)
    ensures forall i, j :: 0 <= i < j < |r| ==> StrLe(r[i], r[j])
  {
    StrLeIsTotalPreorder();
    Sorting.SortBy(xs, StrLe)
  }

  /** The first row of a non-empty history has the earliest year of the EIN, and among
      the rows of that year it is the first in input order. */
  lemma HistoryHead(obs: seq<Obs>, ein: string)
    requires |History(obs, ein)| > 0
    ensures var o := History(obs, ein)[0];
            && o in RowsOf(obs, ein)
            && (forall x :: x in RowsOf(obs, ein) ==> o.year <= x.year)
            && |Sorting.TiedWith(RowsOf(obs, ein), o, YearLe)| > 0
            && Sorting.TiedWith(RowsOf(obs, ein), o, YearLe)[0] == o
  {
    var h := History(obs, ein);
    var rows := RowsOf(obs, ein);
    var o := h[0];
    assert o in multiset(h);
    forall x | x in rows ensures o.year <= x.year {
      assert x in multiset(rows);
      var k :| 0 <= k < |h| && h[k] == x;
    }
    assert Sorting.Tied(YearLe, o, o);
    assert Sorting.TiedWith(h, o, YearLe) == [o] + Sorting.TiedWith(h[1..], o, YearLe);
  }

  /** The analysis of one EIN's group, if it yields a row; the name is the one on the
      group's first row after sorting (`iloc[0]`). */
  function AnalyzeGroup(obs: seq<Obs>, ein: string): (r: Option<Profile>)
    ensures r.Some? <==> Analyze(Revenues(History(obs, ein))).Some?
    ensures r.Some? ==> r.value.ein == ein && r.value.stats == Analyze(Revenues(History(obs, ein))).value
    // the name is that of the earliest-year row, the first such row in input order
    ensures r.Some? ==>
              exists o :: o in RowsOf(obs, ein) && o.orgName == r.value.orgName &&
                (forall x :: x in RowsOf(obs, ein) ==> o.year <= x.year) &&
                |Sorting.TiedWith(RowsOf(obs, ein), o, YearLe)| > 0 &&
                Sorting.TiedWith(RowsOf(obs, ein), o, YearLe)[0] == o
  {
    var h := History(obs, ein);
    match Analyze(Revenues(h))
    case None => None
    case Some(st) =>
      HistoryHead(obs, ein);
      Some(Profile(ein, h[0].orgName, st))
  }

  /** `analyze` answers for the key it was asked about. */
  ghost predicate KeepsKey(analyze: string -> Option<Profile>) {
    forall e :: analyze(e).Some? ==> analyze(e).value.ein == e
  }

  /** One output row per key in `eins` whose group `analyze` does not skip, in key order. */
  function Collect(eins: seq<string>, analyze: string -> Option<Profile>): (out: seq<Profile>)
    requires KeepsKey(analyze)
    ensures forall p :: p in out ==> p.ein in eins && analyze(p.ein) == Some(p)
    ensures forall e :: e in eins && analyze(e).Some? ==> analyze(e).value in out
  {
    if |eins| == 0 then []
    else
      var rest := Collect(eins[1..], analyze);
      assert forall x :: x in eins <==> x == eins[0] || x in eins[1..];
      match analyze(eins[0])
      case None => rest
      case Some(p) => [p] + rest
  }

  ghost predicate StrictlyAscending(es: seq<string>) {
    forall i, j :: 0 <= i < j < |es| ==> StrLe(es[i], es[j]) && es[i] != es[j]
  }

  function EinsOf(ps: seq<Profile>): (r: seq<string>)
    ensures |r| == |ps| && forall i :: 0 <= i < |ps| ==> r[i] == ps[i].ein
  {
    seq(|ps|, i requires 0 <= i < |ps| => ps[i].ein)
  }

  /** `Collect` keeps the order of its keys. */
  lemma {:induction false} CollectAscending(eins: seq<string>, analyze: string -> Option<Profile>)
    requires KeepsKey(analyze) && StrictlyAscending(eins)
    ensures StrictlyAscending(EinsOf(Collect(eins, analyze)))
  {
    if |eins| > 0 {
      var rest := Collect(eins[1..], analyze);
      assert StrictlyAscending(eins[1..]);
      CollectAscending(eins[1..], analyze);
      var out := Collect(eins, analyze);
      if analyze(eins[0]).Some? {
        var p := analyze(eins[0]).value;
        assert out == [p] + rest;
        var rs := EinsOf(rest);
        assert EinsOf(out) == [eins[0]] + rs;
        forall k | 0 <= k < |rs| ensures StrLe(eins[0], rs[k]) && eins[0] != rs[k] {
          assert rest[k] in rest;
          var m :| 0 <= m < |eins[1..]| && eins[1..][m] == rs[k];
          assert eins[m + 1] == rs[k];
        }
      } else {
        assert out == rest;
      }
    }
  }

  /** The whole classifier: drop null rows, group by EIN, analyse each group. */
  function ClassifyAll(rows: seq<SeriesRow>): (out: seq<Profile>)
    // at most one row per EIN, in ascending EIN order
    ensures forall i, j :: 0 <= i < j < |out| ==> StrLe(out[i].ein, out[j].ein) && out[i].ein != out[j].ein
    // an EIN has a row exactly when its cleaned, year-ordered history passes the guards
    ensures forall e :: (exists p :: p in out && p.ein == e) <==>
                          Analyze(Revenues(History(DropNulls(rows), e))).Some?
    ensures forall p :: p in out ==>
              p.stats == Analyze(Revenues(History(DropNulls(rows), p.ein))).value
    // each row is its group's analysis, name included
    ensures forall p :: p in out ==> AnalyzeGroup(DropNulls(rows), p.ein) == Some(p)
  {
    var obs := DropNulls(rows);
    var eins := Eins(obs);
    var analyze := e => AnalyzeGroup(obs, e);
    var out := Collect(eins, analyze);
    CollectAscending(eins, analyze);
    assert forall i :: 0 <= i < |out| ==> EinsOf(out)[i] == out[i].ein;
    forall e | Analyze(Revenues(History(obs, e))).Some? ensures exists p :: p in out && p.ein == e {
      EligibleEinIsAKey(obs, e);
      assert analyze(e).value in out;
    }
    out
  }

  /** An EIN whose history passes the guards has rows, so it is one of the group keys. */
  lemma EligibleEinIsAKey(obs: seq<Obs>, e: string)
    requires Analyze(Revenues(History(obs, e))).Some?
    ensures e in Eins(obs)
    ensures AnalyzeGroup(obs, e).Some?
  {
    var h := History(obs, e);
    assert |h| >= 6;
    assert h[0] in multiset(RowsOf(obs, e));
  }

  /** Organisations with fewer than six usable (non-null) points never get a row. */
  lemma ShortHistoryHasNoRow(rows: seq<SeriesRow>, e: string)
    requires |RowsOf(DropNulls(rows), e)| < 6
    ensures forall p :: p in ClassifyAll(rows) ==> p.ein != e
  {
    var h := History(DropNulls(rows), e);
    assert |h| == |multiset(h)|;
  }

  /** The history handed to `Analyze` is in ascending year order and consists of exactly
      this EIN's rows that have both a year and a revenue. */
  lemma HistoryIsCleanAndAscending(rows: seq<SeriesRow>, e: string)
    ensures var h := History(DropNulls(rows), e);
            && (forall i, j :: 0 <= i < j < |h| ==> h[i].year <= h[j].year)
            && (forall o :: o in h <==>
                  o.ein == e &&
                  exists row :: row in rows && row.year.Some? && row.revenue.Some?
                                && o == Obs(row.ein, row.orgName, row.year.value, row.revenue.value))
  {
    var obs := DropNulls(rows);
    var h := History(obs, e);
    forall o ensures o in h <==> o in RowsOf(obs, e) {
      assert o in h <==> o in multiset(h);
      assert o in RowsOf(obs, e) <==> o in multiset(RowsOf(obs, e));
    }
  }
}

=== FILE: numbers.dfy ===
/**
 * Arithmetic over revenue sequences, on exact reals in place of Python floats: sums,
 * means, the sample variance that pandas' `std()` squares, and the few facts about
 * squares the volatility tests need.
 */
module Numbers {

  function Sum(s: seq<real>): real {
    if |s| == 0 then 0.0 else s[0] + Sum(s[1..])
  }

  function Mean(s: seq<real>): real
    requires |s| > 0
  {
    Sum(s) / (|s| as real)
  }

  /** Sum of squared deviations from `m`. */
  function SquaredDeviations(s: seq<real>, m: real): real {
    if |s| == 0 then 0.0 else Sq(s[0] - m) + SquaredDeviations(s[1..], m)
  }

  /** pandas' `Series.std()` squared: the sample variance (divisor n - 1). */
  function SampleVariance(s: seq<real>): real
    requires |s| >= 2
  {
    SquaredDeviations(s, Mean(s)) / ((|s| - 1) as real)
  }

  lemma {:induction false} SquaredDeviationsNonNegative(s: seq<real>, m: real)
    ensures SquaredDeviations(s, m) >= 0.0
  {
    if |s| > 0 {
      SquaredDeviationsNonNegative(s[1..], m);
      SqNonNegative(s[0] - m);
    }
  }

  function Sq(x: real): real {
    x * x
  }

  lemma MulPositive(a: real, b: real)
    requires a > 0.0 && b > 0.0
    ensures a * b > 0.0
  {
  }

  /** Squaring is strictly increasing on the non-negative reals. */
  lemma SqStrictMonotone(a: real, b: real)
    requires 0.0 <= a < b
    ensures Sq(a) < Sq(b)
  {
    var d := b - a;
    var e := b + a;
    MulPositive(d, e);
    calc {
      Sq(b) - Sq(a);
      d * e;
    > 0.0;
    }
  }

  lemma SqNonNegative(a: real)
    ensures Sq(a) >= 0.0
  {
    if a > 0.0 {
      SqStrictMonotone(0.0, a);
    } else if a < 0.0 {
      SqStrictMonotone(0.0, -a);
      calc { Sq(-a); (-a) * (-a); a * a; Sq(a); }
    }
  }

  /** For a positive `m`, `x / m > 0.5` is `x > m / 2`. */
  lemma DivAboveHalf(x: real, m: real)
    requires m > 0.0
    ensures x / m > 0.5 <==> x > m / 2.0
  {
    var q := x / m;
    calc {
      x;
      q * m;
    }
    if q > 0.5 {
      MulPositive(q - 0.5, m);
      calc {
        x - m / 2.0;
        (q - 0.5) * m;
      > 0.0;
      }
    } else if x > m / 2.0 {
      calc {
        (q - 0.5) * m;
        x - m / 2.0;
      > 0.0;
      }
      if q < 0.5 {
        MulPositive(0.5 - q, m);
      }
    }
  }
}

=== FILE: scoring.dfy ===
/**
 * `scripts/score_targets.py`: the additive priority score of a merged profile and the
 * four-band outreach flag derived from it.
 */
module Scoring {
  import opened Wrappers
  import opened Text
  import Momentum
  import Merge
  import Segment

  /** The fields `calculate_score` reads. */
  datatype ScoreInput = ScoreInput(isHollow: bool, isTurbulent: bool, momentumClass: string, sizeBucket: string)

  datatype TargetFlag = HighPriority | Watchlist | LowPriority | NotAFit

  function FlagName(f: TargetFlag): string {
    match f
    case HighPriority => "high_priority"
    case Watchlist => "watchlist"
    case LowPriority => "low_priority"
    case NotAFit => "not_a_fit"
  }

  /** The bands from lowest to highest. */
  function Rank(f: TargetFlag): nat {
    match f
    case NotAFit => 0
    case LowPriority => 1
    case Watchlist => 2
    case HighPriority => 3
  }

  /** The momentum term: 20 when the lower-cased class mentions "down", else 10 when it
      mentions "turbulent", else nothing. */
  function MomentumTerm(momentumClass: string): (r: int)
    ensures r in {0, 10, 20}
  {
    var m := Lower(momentumClass);
    if Contains(m, "down") then 20
    else if Contains(m, "turbulent") then 10
    else 0
  }

  /** The size term, read case-insensitively. */
  function SizeTerm(sizeBucket: string): (r: int)
    ensures r in {0, 10, 15, 20}
  {
    var s := Lower(sizeBucket);
    if s == "medium" then 10
    else if s == "large" then 15
    else if s == "major" then 20
    else 0
  }

  /** `calculate_score`. */
  function CalculateScore(row: ScoreInput): (r: int)
    ensures 0 <= r <= 110
    ensures r % 5 == 0
  {
    var score := 0;
    var score := if row.isHollow then score + 40 else score;
    var score := if row.isTurbulent then score + 30 else score;
    var score := score + MomentumTerm(row.momentumClass);
    score + SizeTerm(row.sizeBucket)
  }

  /** Switching the hollow flag on, all else fixed, adds exactly 40. */
  lemma HollowAddsForty(row: ScoreInput)
    requires !row.isHollow
    ensures CalculateScore(row.(isHollow := true)) == CalculateScore(row) + 40
  {
  }

  /** Switching the turbulent flag on, all else fixed, adds exactly 30. */
  lemma TurbulentAddsThirty(row: ScoreInput)
    requires !row.isTurbulent
    ensures CalculateScore(row.(isTurbulent := true)) == CalculateScore(row) + 30
  {
  }

  /** The bucket names written by the size mapping score 0, 0, 10, 15 and 20 from
      Micro to Major, and 0 for "Unknown". */
  lemma SizeTermOfBucket(b: Segment.SizeBucket)
    ensures SizeTerm(Segment.SizeName(b)) ==
      match b
      case Medium => 10
      case Large => 15
      case Major => 20
      case _ => 0
  {
    var n := Segment.SizeName(b);
    match b
    case Micro => assert Lower(n)[0] == 'm' && Lower(n)[1] == 'i';
    case Small => assert Lower(n)[0] == 's';
    case Medium => assert Lower(n) == "medium";
    case Large => assert Lower(n) == "large";
    case Major => assert Lower(n) == "major";
    case UnknownSize => assert Lower(n)[0] == 'u';
  }

  /** A larger income never lowers the size term of the score. */
  lemma SizeTermFollowsIncome(a: real, b: real)
    requires a <= b
    ensures SizeTerm(Segment.SizeName(Segment.ClassifySize(Some(a)))) <= SizeTerm(Segment.SizeName(Segment.ClassifySize(Some(b))))
  {
    Segment.ClassifySizeMonotone(a, b);
    SizeTermOfBucket(Segment.ClassifySize(Some(a)));
    SizeTermOfBucket(Segment.ClassifySize(Some(b)));
  }

  /** The seven label strings are already lower case. */
  lemma LabelIsLowerCase(c: Momentum.MomentumClass)
    ensures Lower(Momentum.ClassName(c)) == Momentum.ClassName(c)
  {
    var n := Momentum.ClassName(c);
    assert forall i :: 0 <= i < |n| ==> !('A' <= n[i] <= 'Z');
  }

  /** Which labels mention "down" and which mention "turbulent". Absence is shown by a
      letter of the word that the label lacks. */
  lemma LabelWords(c: Momentum.MomentumClass)
    ensures Contains(Lower(Momentum.ClassName(c)), "down") <==> c == Momentum.StrongDown || c == Momentum.WeakDown
    ensures Contains(Lower(Momentum.ClassName(c)), "turbulent") <==> c == Momentum.Turbulent
  {
    LabelIsLowerCase(c);
    var n := Momentum.ClassName(c);
    match c {
      case Turbulent =>
        assert OccursAt(n, "turbulent", 0);
        LacksLetter(n, "down", 0);
      case StrongUp =>
        LacksLetter(n, "down", 0);
        LacksLetter(n, "turbulent", 3);
      case StrongDown =>
        assert OccursAt(n, "down", 16);
        LacksLetter(n, "turbulent", 3);
      case WeakUp =>
        LacksLetter(n, "down", 0);
        LacksLetter(n, "turbulent", 3);
      case WeakDown =>
        assert OccursAt(n, "down", 5);
        LacksLetter(n, "turbulent", 3);
      case Stable =>
        LacksLetter(n, "down", 0);
        LacksLetter(n, "turbulent", 2);
      case Uncategorized =>
        LacksLetter(n, "down", 2);
        LacksLetter(n, "turbulent", 3);
    }
  }

  lemma LacksLetter(s: string, t: string, k: nat)
    requires k < |t| && t[k] !in s
    ensures !Contains(s, t)
  {
    if Contains(s, t) {
      ContainsKeepsChars(s, t, k);
    }
  }

  /** The momentum term of each of the seven labels. */
  lemma MomentumTermOfLabels(c: Momentum.MomentumClass)
    ensures MomentumTerm(Momentum.ClassName(c)) ==
              if c == Momentum.StrongDown || c == Momentum.WeakDown then 20
              else if c == Momentum.Turbulent then 10
              else 0
  {
    LabelWords(c);
  }

  /** When the class is one of the seven labels and the turbulent flag is derived from
      it, the two turbulence terms coincide and the score never exceeds 100. */
  lemma ScoreOfLabelAtMostHundred(isHollow: bool, c: Momentum.MomentumClass, sizeBucket: string)
    ensures var name := Momentum.ClassName(c);
            CalculateScore(ScoreInput(isHollow, Merge.IsTurbulent(name), name, sizeBucket)) <= 100
  {
    LabelWords(c);
  }

  /** `assign_flag`: bands with inclusive lower bounds 70, 50 and 30. */
  function AssignFlag(score: int): (f: TargetFlag)
    ensures f == HighPriority <==> score >= 70
    ensures f == Watchlist <==> 50 <= score < 70
    ensures f == LowPriority <==> 30 <= score < 50
    ensures f == NotAFit <==> score < 30
  {
    if score >= 70 then HighPriority
    else if score >= 50 then Watchlist
    else if score >= 30 then LowPriority
    else NotAFit
  }

  /** A higher score never yields a lower band. */
  lemma AssignFlagMonotone(a: int, b: int)
    requires a <= b
    ensures Rank(AssignFlag(a)) <= Rank(AssignFlag(b))
  {
  }

  /** Hollow, not turbulent, "weak_down" and "Large" score 40 + 20 + 15 = 75, which is
      high priority. */
  lemma HollowWeakDownLargeIsHighPriority()
    ensures CalculateScore(ScoreInput(true, false, "weak_down", "Large")) == 75
    ensures AssignFlag(75) == HighPriority
  {
    MomentumTermOfLabels(Momentum.WeakDown);
    assert Lower("Large") == "large";
  }

  /** A scored profile row. */
  datatype Scored = Scored(profile: Merge.Profile, score: int, flag: TargetFlag)

  /** The scoring fields of a merged profile. */
  function InputOf(p: Merge.Profile): ScoreInput {
    ScoreInput(p.isHollow, p.isTurbulent, p.row.momentum.momentumClass, p.row.org.sizeBucket)
  }

  /** `df.apply(calculate_score)` followed by `assign_flag`, row by row. */
  function ScoreAll(profiles: seq<Merge.Profile>): (r: seq<Scored>)
    ensures |r| == |profiles|
    ensures forall i :: 0 <= i < |r| ==>
              r[i].profile == profiles[i] && 0 <= r[i].score <= 110 &&
              r[i].score == CalculateScore(InputOf(profiles[i])) &&
              r[i].flag == AssignFlag(r[i].score)
  {
    seq(|profiles|, i requires 0 <= i < |profiles| =>
      var p := profiles[i];
      var score := CalculateScore(ScoreInput(p.isHollow, p.isTurbulent,
                                             p.row.momentum.momentumClass, p.row.org.sizeBucket));
      Scored(p, score, AssignFlag(score)))
  }

  /** A hollow or turbulent profile is at least low priority, and one both hollow and
      turbulent is high priority, whatever its class and size. */
  lemma ScoreAllFlagFloor(profiles: seq<Merge.Profile>, i: nat)
    requires i < |profiles|
    ensures var r := ScoreAll(profiles);
            ((profiles[i].isHollow || profiles[i].isTurbulent) ==> Rank(r[i].flag) >= Rank(LowPriority)) &&
            (profiles[i].isHollow && profiles[i].isTurbulent ==> r[i].flag == HighPriority)
  {
    var r := ScoreAll(profiles);
    var row := InputOf(profiles[i]);
    assert r[i].score == CalculateScore(row);
    var m := MomentumTerm(row.momentumClass);
    var z := SizeTerm(row.sizeBucket);
    assert m >= 0 && z >= 0;
    if row.isHollow || row.isTurbulent {
      AssignFlagMonotone(30, r[i].score);
    }
  }

  /** `IS_TURBULENT` of a classifier label holds exactly for the label "turbulent". */
  lemma TurbulentFlagOfLabel(c: Momentum.MomentumClass)
    ensures Merge.IsTurbulent(Momentum.ClassName(c)) <==> c == Momentum.Turbulent
  {
    LabelWords(c);
  }
}

=== FILE: segment.dfy ===
/**
 * `scripts/classify_and_segment.py`: the NTEE-code-to-sector lookup, the income size
 * ladder, the dominant sector of each ZIP and the top organisations by income.
 */
module Segment {
  import opened Wrappers
  import opened Text
  import Sorting

  const UnknownSector: string := "Unknown"

  /** The upper-cased first non-space character of a code: the only part of it the
      sector lookup reads. */
  function Lead(code: string): Option<char> {
    match FirstNonSpace(code)
    case None => None
    case Some(c) => Some(UpperChar(c))
  }

  /** `get_sector` after `fillna("")`: a missing or blank code is "Unknown"; otherwise the
      upper-cased first character of the stripped code is looked up in the sector map
      (whose keys are strings, so only one-character keys can ever match). */
  function GetSector(code: Option<string>, sectorMap: map<string, string>): (r: string)
    ensures r == match Lead(code.GetOr(""))
                 case None => UnknownSector
                 case Some(c) => if [c] in sectorMap then sectorMap[[c]] else UnknownSector
  {
    var s := code.GetOr("");
    StripLeadsWithFirstNonSpace(s);
    var stripped := Strip(s);
    if |stripped| == 0 then UnknownSector
    else
      var prefix := [Upper(stripped)[0]];
      if prefix in sectorMap then sectorMap[prefix] else UnknownSector
  }

  /** A missing, empty or all-whitespace code maps to "Unknown". */
  lemma BlankCodeIsUnknown(code: Option<string>, sectorMap: map<string, string>)
    requires code.None? || forall i :: 0 <= i < |code.value| ==> IsSpace(code.value[i])
    ensures GetSector(code, sectorMap) == UnknownSector
  {
    if code.Some? {
      NoLeadInBlank(code.value);
    }
  }

  lemma {:induction false} NoLeadInBlank(s: string)
    requires forall i :: 0 <= i < |s| ==> IsSpace(s[i])
    ensures FirstNonSpace(s).None?
  {
    if |s| > 0 {
      NoLeadInBlank(s[1..]);
    }
  }

  /** A code whose leading letter has no entry in the map is "Unknown". */
  lemma UnmappedLeadIsUnknown(code: string, sectorMap: map<string, string>)
    requires Lead(code).Some? && [Lead(code).value] !in sectorMap
    ensures GetSector(Some(code), sectorMap) == UnknownSector
  {
  }

  lemma {:induction false} FirstNonSpaceOfLower(s: string)
    ensures FirstNonSpace(Lower(s)).None? <==> FirstNonSpace(s).None?
    ensures FirstNonSpace(s).Some? ==> FirstNonSpace(Lower(s)).value == LowerChar(FirstNonSpace(s).value)
  {
    if |s| > 0 {
      assert Lower(s)[1..] == Lower(s[1..]);
      FirstNonSpaceOfLower(s[1..]);
    }
  }

  lemma {:induction false} FirstNonSpaceOfUpper(s: string)
    ensures FirstNonSpace(Upper(s)).None? <==> FirstNonSpace(s).None?
    ensures FirstNonSpace(s).Some? ==> FirstNonSpace(Upper(s)).value == UpperChar(FirstNonSpace(s).value)
  {
    if |s| > 0 {
      assert Upper(s)[1..] == Upper(s[1..]);
      FirstNonSpaceOfUpper(s[1..]);
    }
  }

  lemma {:induction false} FirstNonSpaceSkipsPadding(pad: string, s: string)
    requires forall i :: 0 <= i < |pad| ==> IsSpace(pad[i])
    ensures FirstNonSpace(pad + s) == FirstNonSpace(s)
  {
    if |pad| > 0 {
      assert (pad + s)[0] == pad[0];
      assert (pad + s)[1..] == pad[1..] + s;
      FirstNonSpaceSkipsPadding(pad[1..], s);
    } else {
      assert pad + s == s;
    }
  }

  lemma LeadOfLower(code: string)
    ensures Lead(Lower(code)) == Lead(code)
  {
    FirstNonSpaceOfLower(code);
    if FirstNonSpace(code).Some? {
      var c := FirstNonSpace(code).value;
      assert UpperChar(LowerChar(c)) == UpperChar(c);
    }
  }

  lemma LeadOfUpper(code: string)
    ensures Lead(Upper(code)) == Lead(code)
  {
    FirstNonSpaceOfUpper(code);
    if FirstNonSpace(code).Some? {
      var c := FirstNonSpace(code).value;
      assert UpperChar(UpperChar(c)) == UpperChar(c);
    }
  }

  /** The sector ignores the case of the code ... */
  lemma SectorIgnoresCase(code: string, sectorMap: map<string, string>)
    ensures GetSector(Some(Lower(code)), sectorMap) == GetSector(Some(code), sectorMap)
    ensures GetSector(Some(Upper(code)), sectorMap) == GetSector(Some(code), sectorMap)
  {
    LeadOfLower(code);
    LeadOfUpper(code);
  }

  lemma {:induction false} FirstNonSpaceIgnoresTail(s: string, pad: string)
    requires forall i :: 0 <= i < |pad| ==> IsSpace(pad[i])
    ensures FirstNonSpace(s + pad) == FirstNonSpace(s)
  {
    if |s| == 0 {
      assert s + pad == pad;
      NoLeadInBlank(pad);
    } else {
      assert (s + pad)[0] == s[0];
      assert (s + pad)[1..] == s[1..] + pad;
      FirstNonSpaceIgnoresTail(s[1..], pad);
    }
  }

  /** ... and any whitespace around it. */
  lemma SectorIgnoresPadding(code: string, pad: string, sectorMap: map<string, string>)
    requires forall i :: 0 <= i < |pad| ==> IsSpace(pad[i])
    ensures GetSector(Some(pad + code), sectorMap) == GetSector(Some(code), sectorMap)
    ensures GetSector(Some(code + pad), sectorMap) == GetSector(Some(code), sectorMap)
  {
    FirstNonSpaceSkipsPadding(pad, code);
    FirstNonSpaceIgnoresTail(code, pad);
  }

  // ---------------------------------------------------------------------------
  // Size buckets
  // ---------------------------------------------------------------------------

  datatype SizeBucket = Micro | Small | Medium | Large | Major | UnknownSize

  function SizeName(b: SizeBucket): string {
    match b
    case Micro => "Micro"
    case Small => "Small"
    case Medium => "Medium"
    case Large => "Large"
    case Major => "Major"
    case UnknownSize => "Unknown"
  }

  /** The buckets of known incomes from smallest to largest. */
  function SizeRank(b: SizeBucket): nat {
    match b
    case Micro => 0
    case Small => 1
    case Medium => 2
    case Large => 3
    case Major => 4
    case UnknownSize => 0
  }

  /** `size_bucket` of the coerced `INCOME_AMT`. */
  function ClassifySize(income: Option<real>): (r: SizeBucket)
    ensures r == UnknownSize <==> income.None?
    ensures r == Micro <==> income.Some? && income.value < 50000.0
    ensures r == Small <==> income.Some? && 50000.0 <= income.value < 250000.0
    ensures r == Medium <==> income.Some? && 250000.0 <= income.value < 1000000.0
    ensures r == Large <==> income.Some? && 1000000.0 <= income.value < 10000000.0
    ensures r == Major <==> income.Some? && 10000000.0 <= income.value
  {
    match income
    case None => UnknownSize
    case Some(rev) =>
      if rev < 50000.0 then Micro
      else if rev < 250000.0 then Small
      else if rev < 1000000.0 then Medium
      else if rev < 10000000.0 then Large
      else Major
  }

  /** A larger income never lands in a smaller bucket. */
  lemma ClassifySizeMonotone(a: real, b: real)
    requires a <= b
    ensures SizeRank(ClassifySize(Some(a))) <= SizeRank(ClassifySize(Some(b)))
  {
  }

  // ---------------------------------------------------------------------------
  // Dominant sector per ZIP
  // ---------------------------------------------------------------------------

  /** A classified organisation row. */
  datatype OrgRecord = OrgRecord(ein: string, name: string, zip: string, sector: string, income: Option<real>)

  /** Organisations of `zip` in `sector`. */
  function Count(rows: seq<OrgRecord>, zip: string, sector: string): (n: nat)
    ensures n == 0 <==> forall x :: x in rows ==> x.zip != zip || x.sector != sector
  {
    if |rows| == 0 then 0
    else
      assert forall x :: x in rows <==> x == rows[0] || x in rows[1..];
      (if rows[0].zip == zip && rows[0].sector == sector then 1 else 0) + Count(rows[1..], zip, sector)
  }

  /** The known sectors that occur in `zip`, in row order. */
  function KnownSectors(rows: seq<OrgRecord>, zip: string): (r: seq<string>)
    ensures forall s :: s in r <==> s != UnknownSector && exists x :: x in rows && x.zip == zip && x.sector == s
  {
    if |rows| == 0 then []
    else
      var rest := KnownSectors(rows[1..], zip);
      var x := rows[0];
      assert forall y :: y in rows <==> y == x || y in rows[1..];
      if x.zip == zip && x.sector != UnknownSector then [x.sector] + rest else rest
  }

  /** A candidate with the largest count; the earliest such when counts tie. */
  function MostFrequent(cands: seq<string>, rows: seq<OrgRecord>, zip: string): (r: string)
    requires |cands| > 0
    ensures r in cands
    ensures forall c :: c in cands ==> Count(rows, zip, c) <= Count(rows, zip, r)
  {
    if |cands| == 1 then cands[0]
    else
      var best := MostFrequent(cands[1..], rows, zip);
      assert forall c :: c in cands <==> c == cands[0] || c in cands[1..];
      if Count(rows, zip, cands[0]) >= Count(rows, zip, best) then cands[0] else best
  }

  /** The `dominant_sector` of a ZIP: the most frequent sector other than "Unknown", or
      none when all of its organisations are of unknown sector. On tied counts pandas'
      unstable sort may pick any of the tied sectors; this picks the first in row order. */
  function DominantSector(rows: seq<OrgRecord>, zip: string): (r: Option<string>)
    ensures r.None? <==> forall x :: x in rows && x.zip == zip ==> x.sector == UnknownSector
    ensures r.Some? ==> r.value != UnknownSector && Count(rows, zip, r.value) > 0
    ensures r.Some? ==> forall s :: s != UnknownSector ==> Count(rows, zip, s) <= Count(rows, zip, r.value)
  {
    var cands := KnownSectors(rows, zip);
    if |cands| == 0 then
      assert forall x :: x in rows && x.zip == zip ==> x.sector == UnknownSector by {
        forall x | x in rows && x.zip == zip ensures x.sector == UnknownSector {
          assert x.sector !in cands;
        }
      }
      None
    else
      assert cands[0] in cands;
      var best := MostFrequent(cands, rows, zip);
      forall s | s != UnknownSector ensures Count(rows, zip, s) <= Count(rows, zip, best) {
        if Count(rows, zip, s) > 0 {
          assert s in cands;
        }
      }
      Some(best)
  }

  // ---------------------------------------------------------------------------
  // Top organisations by income
  // ---------------------------------------------------------------------------

  /** The order of `sort_values("INCOME_AMT", ascending=False)`: larger incomes first,
      missing incomes last. */
  predicate IncomeFirst(a: OrgRecord, b: OrgRecord) {
    match (a.income, b.income)
    case (Some(x), Some(y)) => x >= y
    case (Some(_), None) => true
    case (None, Some(_)) => false
    case (None, None) => true
  }

  lemma IncomeFirstIsTotalPreorder()
    ensures Sorting.TotalPreorder(IncomeFirst)
  {
  }

  const TopCount: nat := 100

  /** `df.sort_values("INCOME_AMT", ascending=False).head(100)`. */
  function TopOrgs(rows: seq<OrgRecord>): (r: seq<OrgRecord>)
    ensures |r| == if |rows| < TopCount then |rows| else TopCount
    ensures forall i, j :: 0 <= i < j < |r| ==> IncomeFirst(r[i], r[j])
    ensures multiset(r) <= multiset(rows)
    // nothing left out ranks above anything kept
    ensures forall x :: x in rows && x !in r ==> forall y :: y in r ==> IncomeFirst(y, x)
  {
    IncomeFirstIsTotalPreorder();
    var sorted := Sorting.SortBy(rows, IncomeFirst);
    var r := Sorting.Take(sorted, TopCount);
    assert sorted == r + sorted[|r|..];
    forall x | x in rows && x !in r ensures forall y :: y in r ==> IncomeFirst(y, x) {
      assert x in multiset(sorted);
      var j :| 0 <= j < |sorted| && sorted[j] == x;
      assert forall k :: 0 <= k < |r| ==> r[k] == sorted[k];
      forall y | y in r ensures IncomeFirst(y, x) {
        var i :| 0 <= i < |r| && r[i] == y;
      }
    }
    r
  }
}

=== FILE: sorting.dfy ===
/**
 * Sorting by a caller-supplied order, standing in for pandas' `sort_values`.
 * The order only has to be a total preorder. The sort is stable: rows with equal keys
 * keep their input order, as they do under pandas' multi-column sort (a lexsort).
 */
module Sorting {

  ghost predicate Total<T(!new)>(le: (T, T) -> bool) {
    forall a, b :: le(a, b) || le(b, a)
  }

  ghost predicate Transitive<T(!new)>(le: (T, T) -> bool) {
    forall a, b, c :: le(a, b) && le(b, c) ==> le(a, c)
  }

  ghost predicate TotalPreorder<T(!new)>(le: (T, T) -> bool) {
    Total(le) && Transitive(le)
  }

  /** Every earlier element is `le` every later one. */
  ghost predicate SortedBy<T>(s: seq<T>, le: (T, T) -> bool) {
    forall i, j :: 0 <= i < j < |s| ==> le(s[i], s[j])
  }

  /** Inserts `x` before the first element that is strictly greater, so after every
      element with an equal key. */
  function Insert<T>(x: T, s: seq<T>, le: (T, T) -> bool): seq<T> {
    if |s| == 0 then [x]
    else if !le(s[0], x) then [x] + s
    else [s[0]] + Insert(x, s[1..], le)
  }

  lemma {:induction false} InsertPermutes<T>(x: T, s: seq<T>, le: (T, T) -> bool)
    ensures multiset(Insert(x, s, le)) == multiset(s) + multiset{x}
    ensures |Insert(x, s, le)| == |s| + 1
  {
    if |s| > 0 && le(s[0], x) {
      InsertPermutes(x, s[1..], le);
      assert s == [s[0]] + s[1..];
    }
  }

  lemma {:induction false} InsertSorted<T(!new)>(x: T, s: seq<T>, le: (T, T) -> bool)
    requires TotalPreorder(le) && SortedBy(s, le)
    ensures SortedBy(Insert(x, s, le), le)
  {
    if |s| == 0 {
    } else if !le(s[0], x) {
      assert le(x, s[0]);
      var r := [x] + s;
      forall i, j | 0 <= i < j < |r| ensures le(r[i], r[j]) {
        if i == 0 && j > 1 {
          assert le(s[0], s[j - 1]);
        }
      }
    } else {
      var rest := Insert(x, s[1..], le);
      InsertSorted(x, s[1..], le);
      InsertPermutes(x, s[1..], le);
      assert s == [s[0]] + s[1..];
      forall y | y in rest ensures le(s[0], y) {
        assert y in multiset(rest);
        if y != x {
          assert y in multiset(s[1..]);
          var k :| 0 <= k < |s[1..]| && s[1..][k] == y;
          assert s[k + 1] == y;
        }
      }
      var r := [s[0]] + rest;
      forall i, j | 0 <= i < j < |r| ensures le(r[i], r[j]) {
        if i == 0 {
          assert r[j] == rest[j - 1];
          assert r[j] in rest;
        } else {
          assert r[i] == rest[i - 1] && r[j] == rest[j - 1];
        }
      }
    }
  }

  /** Insertion sort: a permutation of `s` that is sorted by `le`. */
  function SortBy<T(!new)>(s: seq<T>, le: (T, T) -> bool): (r: seq<T>)
    requires TotalPreorder(le)
    ensures SortedBy(r, le)
    ensures multiset(r) == multiset(s)
    ensures |r| == |s|
  {
    if |s| == 0 then []
    else
      var sorted := SortBy(s[..|s| - 1], le);
      InsertSorted(s[|s| - 1], sorted, le);
      InsertPermutes(s[|s| - 1], sorted, le);
      assert s == s[..|s| - 1] + [s[|s| - 1]];
      Insert(s[|s| - 1], sorted, le)
  }

  /** A pair already in order stays as it is; in particular two tied elements keep their
      input order. */
  lemma SortPairInOrder<T(!new)>(a: T, b: T, le: (T, T) -> bool)
    requires TotalPreorder(le) && le(a, b)
    ensures SortBy([a, b], le) == [a, b]
  {
    assert [a, b][..1] == [a];
    assert [a][..0] == [];
    assert SortBy([a], le) == [a];
  }

  /** `a` and `b` have equal keys under `le`. */
  predicate Tied<T>(le: (T, T) -> bool, a: T, b: T) {
    le(a, b) && le(b, a)
  }

  /** The elements of `s` whose key equals that of `x`, in their order in `s`. */
  function TiedWith<T>(s: seq<T>, x: T, le: (T, T) -> bool): seq<T> {
    if |s| == 0 then []
    else (if Tied(le, s[0], x) then [s[0]] else []) + TiedWith(s[1..], x, le)
  }

  lemma {:induction false} TiedWithAppend<T>(a: seq<T>, b: seq<T>, x: T, le: (T, T) -> bool)
    ensures TiedWith(a + b, x, le) == TiedWith(a, x, le) + TiedWith(b, x, le)
  {
    if |a| == 0 {
      assert a + b == b;
    } else {
      assert (a + b)[0] == a[0];
      assert (a + b)[1..] == a[1..] + b;
      TiedWithAppend(a[1..], b, x, le);
    }
  }

  lemma {:induction false} NothingTied<T>(s: seq<T>, x: T, le: (T, T) -> bool)
    requires forall k :: 0 <= k < |s| ==> !Tied(le, s[k], x)
    ensures TiedWith(s, x, le) == []
  {
    if |s| > 0 {
      NothingTied(s[1..], x, le);
    }
  }

  /** Inserting `x` into a sorted sequence puts it after every element tied with it. */
  lemma {:induction false} InsertStable<T(!new)>(x: T, s: seq<T>, le: (T, T) -> bool, y: T)
    requires TotalPreorder(le) && SortedBy(s, le)
    ensures TiedWith(Insert(x, s, le), y, le) == TiedWith(s, y, le) + TiedWith([x], y, le)
  {
    assert TiedWith([x], y, le) == (if Tied(le, x, y) then [x] else []) by {
      assert [x][1..] == [];
    }
    if |s| == 0 {
    } else if !le(s[0], x) {
      var r := [x] + s;
      assert r[0] == x && r[1..] == s;
      if Tied(le, x, y) {
        forall k | 0 <= k < |s| ensures !Tied(le, s[k], y) {
          if k > 0 {
            assert le(s[0], s[k]);
          }
        }
        NothingTied(s, y, le);
      }
    } else {
      var r := [s[0]] + Insert(x, s[1..], le);
      assert r[0] == s[0] && r[1..] == Insert(x, s[1..], le);
      InsertStable(x, s[1..], le, y);
    }
  }

  /** Stability: the elements tied with any `y` appear in the output in input order. */
  lemma {:induction false} SortByStable<T(!new)>(s: seq<T>, le: (T, T) -> bool, y: T)
    requires TotalPreorder(le)
    ensures TiedWith(SortBy(s, le), y, le) == TiedWith(s, y, le)
  {
    if |s| > 0 {
      var pre := s[..|s| - 1];
      var last := s[|s| - 1];
      var sorted := SortBy(pre, le);
      SortByStable(pre, le, y);
      InsertStable(last, sorted, le, y);
      assert s == pre + [last];
      TiedWithAppend(pre, [last], y, le);
    }
  }

  /** pandas' `head(n)`: the first `n` rows, or all of them when there are fewer. */
  function Take<T>(s: seq<T>, n: nat): (r: seq<T>)
    ensures |r| == if |s| < n then |s| else n
    ensures r == s[..|r|]
  {
    if |s| < n then s else s[..n]
  }

  ghost predicate NoDuplicates<T>(s: seq<T>) {
    forall i, j :: 0 <= i < j < |s| ==> s[i] != s[j]
  }

  lemma {:induction false} NoDuplicatesCountsAtMostOne<T>(s: seq<T>, x: T)
    requires NoDuplicates(s)
    ensures multiset(s)[x] <= 1
  {
    if |s| > 0 {
      assert s == [s[0]] + s[1..];
      NoDuplicatesCountsAtMostOne(s[1..], x);
      if s[0] == x {
        assert x !in s[1..];
      }
    }
  }

  /** Reordering a duplicate-free sequence cannot create a duplicate. */
  lemma PermutationKeepsDistinct<T>(s: seq<T>, r: seq<T>)
    requires NoDuplicates(s) && multiset(r) == multiset(s)
    ensures NoDuplicates(r)
  {
    forall i, j | 0 <= i < j < |r| ensures r[i] != r[j] {
      if r[i] == r[j] {
        var x := r[i];
        assert r == r[..j] + r[j..];
        assert x in r[..j] && x in r[j..];
        assert multiset(r)[x] == multiset(r[..j])[x] + multiset(r[j..])[x];
        NoDuplicatesCountsAtMostOne(s, x);
      }
    }
  }

  lemma PermutationKeepsMembers<T>(s: seq<T>, r: seq<T>)
    requires multiset(r) == multiset(s)
    ensures forall x :: x in r <==> x in s
  {
    forall x ensures x in r <==> x in s {
      assert x in r <==> x in multiset(r);
      assert x in s <==> x in multiset(s);
    }
  }
}

=== FILE: text.dfy ===
/**
 * String helpers with the meaning Python gives them on ASCII text:
 * `str.upper`, `str.lower`, `str.strip`, `in` on strings, `str.startswith`
 * and `<=` on strings (code-point order).
 */
module Text {
  import opened Wrappers

  /** Python's `str.isspace` restricted to ASCII: tab .. carriage return, the
      four separator controls 0x1c .. 0x1f, and the space. */
  predicate IsSpace(c: char) {
    c == ' ' || ('\t' <= c <= '\r') || ((28 as char) <= c <= (31 as char))
  }

  function UpperChar(c: char): char {
    if 'a' <= c <= 'z' then (c as int - 32) as char else c
  }

  function LowerChar(c: char): char {
    if 'A' <= c <= 'Z' then (c as int + 32) as char else c
  }

  function Upper(s: string): (r: string)
    ensures |r| == |s|
    ensures forall i :: 0 <= i < |s| ==> r[i] == UpperChar(s[i])
  {
    seq(|s|, i requires 0 <= i < |s| => UpperChar(s[i]))
  }

  function Lower(s: string): (r: string)
    ensures |r| == |s|
    ensures forall i :: 0 <= i < |s| ==> r[i] == LowerChar(s[i])
  {
    seq(|s|, i requires 0 <= i < |s| => LowerChar(s[i]))
  }

  /** Drops leading whitespace. */
  function StripLeft(s: string): (r: string)
    ensures |r| <= |s| && r == s[|s| - |r|..]
    ensures forall i :: 0 <= i < |s| - |r| ==> IsSpace(s[i])
    ensures |r| > 0 ==> !IsSpace(r[0])
  {
    if |s| > 0 && IsSpace(s[0]) then StripLeft(s[1..]) else s
  }

  /** Drops trailing whitespace. */
  function StripRight(s: string): (r: string)
    ensures |r| <= |s| && r == s[..|r|]
    ensures forall i :: |r| <= i < |s| ==> IsSpace(s[i])
    ensures |r| > 0 ==> !IsSpace(r[|r| - 1])
  {
    if |s| > 0 && IsSpace(s[|s| - 1]) then StripRight(s[..|s| - 1]) else s
  }

  /** Python's `s.strip()`. */
  function Strip(s: string): string {
    StripRight(StripLeft(s))
  }

  /** The first character of `s` that is not whitespace, found by a left-to-right scan. */
  function FirstNonSpace(s: string): Option<char> {
    if |s| == 0 then None
    else if IsSpace(s[0]) then FirstNonSpace(s[1..])
    else Some(s[0])
  }

  /** `strip()` leaves nothing exactly when there is no non-whitespace character, and
      otherwise begins with the first one. */
  lemma {:induction false} StripLeadsWithFirstNonSpace(s: string)
    ensures |Strip(s)| == 0 <==> FirstNonSpace(s).None?
    ensures |Strip(s)| > 0 ==> Strip(s)[0] == FirstNonSpace(s).value
  {
    if |s| == 0 {
    } else if IsSpace(s[0]) {
      assert StripLeft(s) == StripLeft(s[1..]);
      StripLeadsWithFirstNonSpace(s[1..]);
    } else {
      assert StripLeft(s) == s;
      assert FirstNonSpace(s) == Some(s[0]);
      StripRightKeepsNonSpaceHead(s);
    }
  }

  /** A string that starts with a non-space character keeps that character under `StripRight`. */
  lemma {:induction false} StripRightKeepsNonSpaceHead(s: string)
    requires |s| > 0 && !IsSpace(s[0])
    ensures |StripRight(s)| > 0 && StripRight(s)[0] == s[0]
  {
    if IsSpace(s[|s| - 1]) {
      assert |s| > 1;
      StripRightKeepsNonSpaceHead(s[..|s| - 1]);
    }
  }

  predicate AllSpace(s: string) {
    forall i :: 0 <= i < |s| ==> IsSpace(s[i])
  }

  lemma {:induction false} StripLeftSkipsPadding(pad: string, s: string)
    requires AllSpace(pad)
    ensures StripLeft(pad + s) == StripLeft(s)
  {
    if |pad| == 0 {
      assert pad + s == s;
    } else {
      assert (pad + s)[0] == pad[0];
      assert (pad + s)[1..] == pad[1..] + s;
      StripLeftSkipsPadding(pad[1..], s);
    }
  }

  lemma {:induction false} StripRightSkipsPadding(s: string, pad: string)
    requires AllSpace(pad)
    ensures StripRight(s + pad) == StripRight(s)
  {
    if |pad| == 0 {
      assert s + pad == s;
    } else {
      var t := s + pad;
      assert t[|t| - 1] == pad[|pad| - 1];
      assert t[..|t| - 1] == s + pad[..|pad| - 1];
      StripRightSkipsPadding(s, pad[..|pad| - 1]);
    }
  }

  /** Trailing whitespace survives `StripLeft` only behind a non-space character. */
  lemma {:induction false} StripLeftOfPadded(u: string, pad: string)
    requires AllSpace(pad)
    ensures StripLeft(u + pad) == if |StripLeft(u)| == 0 then [] else StripLeft(u) + pad
  {
    if |u| == 0 {
      assert u + pad == pad;
      assert StripLeft(pad) == StripLeft(pad + []) == StripLeft([]) by {
        assert pad + [] == pad;
        StripLeftSkipsPadding(pad, []);
      }
    } else if IsSpace(u[0]) {
      assert (u + pad)[1..] == u[1..] + pad;
      StripLeftOfPadded(u[1..], pad);
    }
  }

  /** `strip()` ignores whitespace added on either side. */
  lemma StripIgnoresPadding(pad1: string, u: string, pad2: string)
    requires AllSpace(pad1) && AllSpace(pad2)
    ensures Strip(pad1 + u + pad2) == Strip(u)
  {
    assert pad1 + u + pad2 == pad1 + (u + pad2);
    StripLeftSkipsPadding(pad1, u + pad2);
    StripLeftOfPadded(u, pad2);
    if |StripLeft(u)| > 0 {
      StripRightSkipsPadding(StripLeft(u), pad2);
    }
  }

  /** Python's `t in s` for strings: `t` occurs as a contiguous block of `s`. */
  predicate Contains(s: string, t: string) {
    exists i | 0 <= i <= |s| - |t| :: OccursAt(s, t, i)
  }

  /** `t` occurs in `s` starting at index `i`. */
  predicate OccursAt(s: string, t: string, i: int) {
    0 <= i <= |s| - |t| && s[i..i + |t|] == t
  }

  /** Every character of an occurring block occurs in the host string; used to show that
      a label does NOT contain a word by naming one letter of the word the label lacks. */
  lemma ContainsKeepsChars(s: string, t: string, k: nat)
    requires Contains(s, t) && k < |t|
    ensures t[k] in s
  {
    var i :| OccursAt(s, t, i);
    assert OccursAt(s, t, i);
    assert s[i..i + |t|][k] == s[i + k];
  }

  /** Python's `s.startswith(p)`. */
  predicate StartsWith(s: string, p: string) {
    |p| <= |s| && s[..|p|] == p
  }

  /** Python's `a <= b` on strings: lexicographic order on code points. */
  predicate StrLe(a: string, b: string) {
    if |a| == 0 then true
    else if |b| == 0 then false
    else if a[0] != b[0] then a[0] < b[0]
    else StrLe(a[1..], b[1..])
  }

  lemma {:induction false} StrLeTotal(a: string, b: string)
    ensures StrLe(a, b) || StrLe(b, a)
  {
    if |a| > 0 && |b| > 0 && a[0] == b[0] {
      StrLeTotal(a[1..], b[1..]);
    }
  }

  lemma {:induction false} StrLeAntisymmetric(a: string, b: string)
    requires StrLe(a, b) && StrLe(b, a)
    ensures a == b
  {
    if |a| > 0 && |b| > 0 {
      StrLeAntisymmetric(a[1..], b[1..]);
      assert a == [a[0]] + a[1..];
      assert b == [b[0]] + b[1..];
    }
  }

  lemma {:induction false} StrLeTransitive(a: string, b: string, c: string)
    requires StrLe(a, b) && StrLe(b, c)
    ensures StrLe(a, c)
  {
    if |a| > 0 && |b| > 0 && |c| > 0 && a[0] == b[0] && b[0] == c[0] {
      StrLeTransitive(a[1..], b[1..], c[1..]);
    }
  }
}

=== FILE: trajectories.dfy ===
/**
 * `scripts/build_trajectories.py`: one row per organisation with its revenue for each
 * year 2019..2023 and the trend metrics derived from those five figures.
 */
module Trajectories {
  import opened Wrappers
  import opened Numbers

  const FirstYear: int := 2019
  const LastYear: int := 2023
  /** Number of years in the window. */
  const Span: nat := 5

  /** A row of the time series: name, year and revenue may be missing or unparseable. A
      row without a name belongs to no group of the pivot, since grouping drops NaN keys. */
  datatype SeriesRow = SeriesRow(ein: string, orgName: Option<string>, year: Option<int>, revenue: Option<real>)

  /** `df[df["YEAR"].between(2019, 2023)]`: a missing year is never between. */
  function InWindow(rows: seq<SeriesRow>): (r: seq<SeriesRow>)
    ensures forall x :: x in r <==> x in rows && x.year.Some? && FirstYear <= x.year.value <= LastYear
    ensures |r| <= |rows|
  {
    if |rows| == 0 then []
    else
      var rest := InWindow(rows[1..]);
      var x := rows[0];
      assert forall y :: y in rows <==> y == x || y in rows[1..];
      if x.year.Some? && FirstYear <= x.year.value <= LastYear then [x] + rest else rest
  }

  /** The non-missing revenues of one organisation in one year. */
  function RevenuesIn(rows: seq<SeriesRow>, ein: string, orgName: string, year: int): (r: seq<real>)
    ensures forall v :: v in r <==>
              exists x :: x in rows && x.ein == ein && x.orgName == Some(orgName) && x.year == Some(year) && x.revenue == Some(v)
  {
    if |rows| == 0 then []
    else
      var rest := RevenuesIn(rows[1..], ein, orgName, year);
      var x := rows[0];
      assert forall y :: y in rows <==> y == x || y in rows[1..];
      if x.ein == ein && x.orgName == Some(orgName) && x.year == Some(year) && x.revenue.Some?
      then [x.revenue.value] + rest else rest
  }

  /** The `REV_<year>` cell of `pivot_table(..., aggfunc="mean")`: the mean of that
      year's non-missing revenues, or missing when there are none. */
  function PivotCell(rows: seq<SeriesRow>, ein: string, orgName: string, year: int): (r: Option<real>)
    ensures r.None? <==>
              forall x :: x in rows && x.ein == ein && x.orgName == Some(orgName) && x.year == Some(year) ==> x.revenue.None?
  {
    var vs := RevenuesIn(rows, ein, orgName, year);
    if |vs| == 0 then None
    else
      assert vs[0] in vs;
      Some(Mean(vs))
  }

  /** The five yearly cells of one organisation, index 0 for 2019. */
  function Window(rows: seq<SeriesRow>, ein: string, orgName: string): (w: seq<Option<real>>)
    ensures |w| == Span
    ensures forall i :: 0 <= i < Span ==> w[i] == PivotCell(InWindow(rows), ein, orgName, FirstYear + i)
  {
    var inWin := InWindow(rows);
    seq(Span, i requires 0 <= i < Span => PivotCell(inWin, ein, orgName, FirstYear + i))
  }

  // ---------------------------------------------------------------------------
  // CAGR and volatility
  // ---------------------------------------------------------------------------

  /** `end / start` when `calc_cagr` yields a real growth rate (the fractional power that
      turns it into one is not modelled). A negative 2023 revenue over a positive 2019 one
      passes the guard, but the fourth root of the negative ratio is no real number, so
      there is no rate: `None`. */
  function CagrRatio(w: seq<Option<real>>): (r: Option<real>)
    requires |w| == Span
    ensures r.Some? <==> w[0].Some? && w[Span - 1].Some? && w[0].value > 0.0 && w[Span - 1].value >= 0.0
    ensures r.Some? ==> r.value >= 0.0 && r.value * w[0].value == w[Span - 1].value
  {
    var start := w[0];
    var end := w[Span - 1];
    if start.None? || end.None? || start.value <= 0.0 || end.value < 0.0 then None
    else
      DivNonNegative(end.value, start.value);
      Some(end.value / start.value)
  }

  /** `ratio` scales the 2019 cell to the 2023 cell. */
  ghost predicate GrowthRatio(w: seq<Option<real>>, ratio: real)
    requires |w| == Span
  {
    w[0].Some? && w[Span - 1].Some? && ratio * w[0].value == w[Span - 1].value
  }

  /** The present values of a window, in year order. */
  function Present(w: seq<Option<real>>): (r: seq<real>)
    ensures |r| <= |w|
    ensures forall v :: v in r <==> Some(v) in w
  {
    if |w| == 0 then []
    else
      var rest := Present(w[1..]);
      assert forall x :: x in w <==> x == w[0] || x in w[1..];
      if w[0].Some? then [w[0].value] + rest else rest
  }

  /** The square of `VOLATILITY`: pandas' row-wise `std()` skips missing cells and is NaN
      with fewer than two values. */
  function WindowVariance(w: seq<Option<real>>): (r: Option<real>)
    ensures r.None? <==> |Present(w)| < 2
    ensures r.Some? ==> r.value >= 0.0
  {
    var vs := Present(w);
    if |vs| < 2 then None
    else
      SquaredDeviationsNonNegative(vs, Mean(vs));
      Some(SampleVariance(vs))
  }

  // ---------------------------------------------------------------------------
  // Years up and down
  // ---------------------------------------------------------------------------

  /** The pair (a, b) of consecutive years counts as a rise (a fall) when both values are
      present and b is strictly greater (smaller). */
  predicate Rises(a: Option<real>, b: Option<real>) {
    a.Some? && b.Some? && b.value > a.value
  }

  predicate Falls(a: Option<real>, b: Option<real>) {
    a.Some? && b.Some? && b.value < a.value
  }

  /** Number of consecutive rises, counted over the pairs of `w` from the left. */
  function Ups(w: seq<Option<real>>): nat {
    if |w| < 2 then 0
    else Ups(w[..|w| - 1]) + (if Rises(w[|w| - 2], w[|w| - 1]) then 1 else 0)
  }

  function Downs(w: seq<Option<real>>): nat {
    if |w| < 2 then 0
    else Downs(w[..|w| - 1]) + (if Falls(w[|w| - 2], w[|w| - 1]) then 1 else 0)
  }

  /** Number of consecutive pairs with both values present and different. */
  function Changes(w: seq<Option<real>>): nat {
    if |w| < 2 then 0
    else
      var a := w[|w| - 2];
      var b := w[|w| - 1];
      Changes(w[..|w| - 1]) + (if a.Some? && b.Some? && a.value != b.value then 1 else 0)
  }

  /** Each pair is a rise, a fall or neither: rises and falls together are exactly the
      pairs that changed, so a pair with a missing end or equal values counts in neither,
      and there are at most `|w| - 1` of them. */
  lemma {:induction false} UpsAndDownsPartitionChanges(w: seq<Option<real>>)
    ensures Ups(w) + Downs(w) == Changes(w)
    ensures |w| >= 1 ==> Changes(w) <= |w| - 1
  {
    if |w| >= 2 {
      UpsAndDownsPartitionChanges(w[..|w| - 1]);
    }
  }

  /** The loop of `count_deltas` in `build_trajectories.py`. */
  method CountDeltas(w: seq<Option<real>>) returns (up: nat, down: nat)
    requires |w| == Span
    ensures up == Ups(w) && down == Downs(w)
    ensures up + down <= Span - 1
  {
    up, down := 0, 0;
    var i := 1;
    while i < |w|
      invariant 1 <= i <= |w|
      invariant up == Ups(w[..i]) && down == Downs(w[..i])
    {
      assert w[..i + 1][..i] == w[..i];
      if Rises(w[i - 1], w[i]) {
        up := up + 1;
      } else if Falls(w[i - 1], w[i]) {
        down := down + 1;
      }
      i := i + 1;
    }
    assert w[..|w|] == w;
    UpsAndDownsPartitionChanges(w);
  }

  // ---------------------------------------------------------------------------
  // Peak, trough, rebound
  // ---------------------------------------------------------------------------

  /** Index of the first maximal present value: Python's `max(revs, key=revs.get)` over the
      years in ascending order keeps the first of equal maxima. */
  function PeakIndex(w: seq<Option<real>>): (r: Option<nat>)
    ensures r.None? <==> forall j :: 0 <= j < |w| ==> w[j].None?
    ensures r.Some? ==>
              && r.value < |w| && w[r.value].Some?
              && (forall j :: 0 <= j < |w| && w[j].Some? ==> w[j].value <= w[r.value].value)
              && (forall j :: 0 <= j < r.value && w[j].Some? ==> w[j].value < w[r.value].value)
  {
    if |w| == 0 then None
    else
      var p := PeakIndex(w[..|w| - 1]);
      var last := |w| - 1;
      assert forall j :: 0 <= j < last ==> w[..last][j] == w[j];
      if w[last].None? then p
      else if p.None? || w[last].value > w[p.value].value then Some(last)
      else p
  }

  /** Index of the first minimal present value (`min(revs, key=revs.get)`). */
  function TroughIndex(w: seq<Option<real>>): (r: Option<nat>)
    ensures r.None? <==> forall j :: 0 <= j < |w| ==> w[j].None?
    ensures r.Some? ==>
              && r.value < |w| && w[r.value].Some?
              && (forall j :: 0 <= j < |w| && w[j].Some? ==> w[r.value].value <= w[j].value)
              && (forall j :: 0 <= j < r.value && w[j].Some? ==> w[r.value].value < w[j].value)
  {
    if |w| == 0 then None
    else
      var p := TroughIndex(w[..|w| - 1]);
      var last := |w| - 1;
      assert forall j :: 0 <= j < last ==> w[..last][j] == w[j];
      if w[last].None? then p
      else if p.None? || w[last].value < w[p.value].value then Some(last)
      else p
  }

  function YearOf(index: Option<nat>): Option<int> {
    match index
    case None => None
    case Some(i) => Some(FirstYear + i)
  }

  /** `rebound_rate`: percentage change from the trough to 2023; undefined when there is
      no trough, 2023 is missing, or the trough is not positive. */
  function ReboundRate(w: seq<Option<real>>): (r: Option<real>)
    requires |w| == Span
    ensures r.Some? <==>
              w[Span - 1].Some? && forall j :: 0 <= j < Span && w[j].Some? ==> w[j].value > 0.0
    // the rate is measured from a minimal present value
    ensures r.Some? ==> exists t :: MeasuredFrom(w, t, r.value)
    // the trough is a minimum over values that include 2023, so a rebound is never negative
    ensures r.Some? ==> r.value >= 0.0
  {
    match TroughIndex(w)
    case None => None
    case Some(t) =>
      var trough := w[t].value;
      var final := w[Span - 1];
      if final.None? || trough <= 0.0 then None
      else
        var rate := Rebound(final.value, trough);
        assert MeasuredFrom(w, t, rate);
        Some(rate)
  }

  /** `rate` is the percentage change from the value of year index `t`, a minimum of the
      present values, to the 2023 value. */
  ghost predicate MeasuredFrom(w: seq<Option<real>>, t: int, rate: real)
    requires |w| == Span
  {
    && 0 <= t < Span && w[t].Some? && w[Span - 1].Some?
    && (forall j :: 0 <= j < Span && w[j].Some? ==> w[t].value <= w[j].value)
    && rate * w[t].value == (w[Span - 1].value - w[t].value) * 100.0
  }

  /** `((final - trough) / trough) * 100` for a positive trough. */
  function Rebound(final: real, trough: real): (r: real)
    requires trough > 0.0
    ensures r * trough == (final - trough) * 100.0
    ensures r >= 0.0 <==> final >= trough
    ensures r == 0.0 <==> final == trough
  {
    var q := (final - trough) / trough;
    assert q * trough == final - trough;
    assert q >= 0.0 <==> final >= trough by {
      if final >= trough {
        DivNonNegative(final - trough, trough);
      }
    }
    q * 100.0
  }

  /** The rebound is zero exactly when 2023 is itself a minimum of the window. */
  lemma ReboundZeroIffLatestIsLowest(w: seq<Option<real>>)
    requires |w| == Span && ReboundRate(w).Some?
    ensures ReboundRate(w).value == 0.0 <==>
              forall j :: 0 <= j < Span && w[j].Some? ==> w[Span - 1].value <= w[j].value
  {
    var t := TroughIndex(w).value;
    assert ReboundRate(w).value == Rebound(w[Span - 1].value, w[t].value);
  }

  lemma DivNonNegative(a: real, b: real)
    requires a >= 0.0 && b > 0.0
    ensures a / b >= 0.0
  {
  }

  /** One output row. */
  datatype Trajectory = Trajectory(
    ein: string,
    orgName: string,
    revenues: seq<Option<real>>,
    cagrRatio: Option<real>,
    variance: Option<real>,
    yearsUp: nat,
    yearsDown: nat,
    peakYear: Option<int>,
    troughYear: Option<int>,
    reboundRate: Option<real>)

  /** The metrics derived from one organisation's five cells `w`. */
  function FromWindow(ein: string, orgName: string, w: seq<Option<real>>): (t: Trajectory)
    requires |w| == Span
    ensures t.ein == ein && t.orgName == orgName && t.revenues == w
    // the up and down counts are the rising and falling present pairs of those cells
    ensures t.yearsUp == Ups(t.revenues) && t.yearsDown == Downs(t.revenues)
    ensures t.yearsUp + t.yearsDown == Changes(t.revenues) <= Span - 1
    // the growth ratio relates the 2019 and 2023 cells
    ensures t.cagrRatio.Some? <==>
              t.revenues[0].Some? && t.revenues[Span - 1].Some? &&
              t.revenues[0].value > 0.0 && t.revenues[Span - 1].value >= 0.0
    ensures t.cagrRatio.Some? ==> GrowthRatio(t.revenues, t.cagrRatio.value)
    ensures t.variance.None? <==> |Present(t.revenues)| < 2
    // peak and trough are years of present cells holding the largest and smallest value
    ensures t.peakYear.None? <==> forall j :: 0 <= j < Span ==> t.revenues[j].None?
    ensures t.peakYear.None? <==> t.troughYear.None?
    ensures t.peakYear.Some? ==>
              FirstYear <= t.peakYear.value <= LastYear &&
              var k := t.peakYear.value - FirstYear;
              t.revenues[k].Some? &&
              forall j :: 0 <= j < Span && t.revenues[j].Some? ==> t.revenues[j].value <= t.revenues[k].value
    ensures t.troughYear.Some? ==>
              FirstYear <= t.troughYear.value <= LastYear &&
              var k := t.troughYear.value - FirstYear;
              t.revenues[k].Some? &&
              forall j :: 0 <= j < Span && t.revenues[j].Some? ==> t.revenues[k].value <= t.revenues[j].value
    // the rebound is measured from a minimal cell to the 2023 cell
    ensures t.reboundRate.Some? <==>
              t.revenues[Span - 1].Some? &&
              forall j :: 0 <= j < Span && t.revenues[j].Some? ==> t.revenues[j].value > 0.0
    ensures t.reboundRate.Some? ==> exists k :: MeasuredFrom(t.revenues, k, t.reboundRate.value)
  {
    UpsAndDownsPartitionChanges(w);
    var cagr := CagrRatio(w);
    assert cagr.Some? ==> GrowthRatio(w, cagr.value);
    Trajectory(ein, orgName, w, cagr, WindowVariance(w), Ups(w), Downs(w),
               YearOf(PeakIndex(w)), YearOf(TroughIndex(w)), ReboundRate(w))
  }

  /** The metrics of one organisation (one `(EIN, ORG_NAME)` group of the pivot). */
  function Build(rows: seq<SeriesRow>, ein: string, orgName: string): (t: Trajectory)
    ensures t.ein == ein && t.orgName == orgName
    // the five cells are the group's pivot cells for 2019..2023
    ensures |t.revenues| == Span && t.revenues == Window(rows, ein, orgName)
    // the up and down counts are the rising and falling present pairs of those cells
    ensures t.yearsUp == Ups(t.revenues) && t.yearsDown == Downs(t.revenues)
    ensures t.yearsUp + t.yearsDown == Changes(t.revenues) <= Span - 1
    // the growth ratio relates the 2019 and 2023 cells
    ensures t.cagrRatio.Some? <==>
              t.revenues[0].Some? && t.revenues[Span - 1].Some? &&
              t.revenues[0].value > 0.0 && t.revenues[Span - 1].value >= 0.0
    ensures t.cagrRatio.Some? ==> GrowthRatio(t.revenues, t.cagrRatio.value)
    ensures t.variance.None? <==> |Present(t.revenues)| < 2
    // peak and trough are years of present cells holding the largest and smallest value
    ensures t.peakYear.None? <==> forall j :: 0 <= j < Span ==> t.revenues[j].None?
    ensures t.peakYear.None? <==> t.troughYear.None?
    ensures t.peakYear.Some? ==>
              FirstYear <= t.peakYear.value <= LastYear &&
              var k := t.peakYear.value - FirstYear;
              t.revenues[k].Some? &&
              forall j :: 0 <= j < Span && t.revenues[j].Some? ==> t.revenues[j].value <= t.revenues[k].value
    ensures t.troughYear.Some? ==>
              FirstYear <= t.troughYear.value <= LastYear &&
              var k := t.troughYear.value - FirstYear;
              t.revenues[k].Some? &&
              forall j :: 0 <= j < Span && t.revenues[j].Some? ==> t.revenues[k].value <= t.revenues[j].value
    // the rebound is measured from a minimal cell to the 2023 cell
    ensures t.reboundRate.Some? <==>
              t.revenues[Span - 1].Some? &&
              forall j :: 0 <= j < Span && t.revenues[j].Some? ==> t.revenues[j].value > 0.0
    ensures t.reboundRate.Some? ==> exists k :: MeasuredFrom(t.revenues, k, t.reboundRate.value)
  {
    FromWindow(ein, orgName, Window(rows, ein, orgName))
  }

  /** The pivot has a `REV_<year>` column: `pivot_table` drops a column whose cells are all
      missing, so one exists exactly when some in-window, named row carries a revenue for
      that year. */
  predicate HasColumn(rows: seq<SeriesRow>, year: int) {
    exists x :: x in InWindow(rows) && x.orgName.Some? && x.year == Some(year) && x.revenue.Some?
  }

  /** The whole table for the pivot's groups `keys`. Selecting the five `REV_` columns for
      the volatility raises a KeyError (`None`) when any of them is absent. */
  function BuildTable(rows: seq<SeriesRow>, keys: seq<(string, string)>): (r: Option<seq<Trajectory>>)
    ensures r.None? <==> exists y :: FirstYear <= y <= LastYear && !HasColumn(rows, y)
    ensures r.Some? ==>
              |r.value| == |keys| &&
              forall i :: 0 <= i < |keys| ==> r.value[i] == Build(rows, keys[i].0, keys[i].1)
  {
    if forall y :: FirstYear <= y <= LastYear ==> HasColumn(rows, y) then
      Some(seq(|keys|, i requires 0 <= i < |keys| => Build(rows, keys[i].0, keys[i].1)))
    else None
  }

  /** A window year in which no row has a readable revenue leaves the table unbuilt,
      whatever the other years hold. */
  lemma MissingYearFailsTable(rows: seq<SeriesRow>, keys: seq<(string, string)>, y: int)
    requires FirstYear <= y <= LastYear
    requires forall x :: x in rows && x.year == Some(y) ==> x.revenue.None?
    ensures BuildTable(rows, keys).None?
  {
    forall x | x in InWindow(rows) && x.year == Some(y) ensures x.revenue.None? {
      assert x in rows;
    }
    assert !HasColumn(rows, y);
  }
}

=== FILE: wrappers.dfy ===
/** Optional values: the model's stand-in for Python's `None` and pandas' missing cells. */
module Wrappers {

  datatype Option<+T> = None | Some(value: T) {

    /** Returns the wrapped value, or `default` when there is none. */
    function GetOr(default: T): T {
      match this
      case Some(v) => v
      case None => default
    }
  }
}
